=== FILE: README.md ===
# Jam Jar account rules in Dafny

Jam Jar is the back end of a music-practice journal. Students log practice
sessions, receive achievements and goals, and pay for a subscription through
a Stripe checkout. This project models the rule layer around the user
account as pure functions over an immutable user store (a `map` from primary
key to `User` record). Each endpoint returns a status code and the store
after the request. The verified properties cover:

- Stripe webhook reconciliation and the confirm-subscription call
  (`Payments`).
- The four-entry achievement catalogue and `award_achievements`
  (`Practice`).
- The registration, profile-update and listing rules of the serializers
  (`Serializers`).
- Registration, username availability, the email-confirmation state machine
  and profile update (`AccountViews`).
- The object-permission class, the per-requester querysets, item and goal
  creation, and the presigned-upload argument check (`ResourceViews`).
- The `Goal` record with its choices, bounds, defaults and string form
  (`Goals`), and the `CustomUser` record with its defaults (`Users`).

Modelling conventions:

- Django's `QuerySet.get` is `Users.Get` over the set of matching keys. It
  yields `NotFound`, `Found(id)` or `Multiple`. `MultipleObjectsReturned` is
  caught nowhere, so `Multiple` becomes a 500 reply.
- Saving a string longer than a `varchar(100)` column raises a database
  error. The webhook does not catch it, so the reply is 500. The
  confirm-subscription view catches every exception, so the reply is 400.
- Inputs that come from outside the application are parameters of the
  model:
  - the result of Stripe's signature check (`Payments.Verification`);
  - the session lookup (`string -> Payments.Retrieval`);
  - the token-expiry test (`User -> bool`);
  - whether the mail service delivered (`delivered: bool`);
  - the object-storage presigner.
- A missing key in a request body is `None`; Python truthiness of an
  optional string is `Common.Truthy`; `str.strip()` is `Text.Strip` over
  the characters `str.isspace` accepts.
- Django's `AbstractUser`, which is not part of this model, gives
  `username`, `first_name` and `last_name` 150-character columns and `email`
  a 254-character one. The serializers check those lengths before anything
  reaches the database.
- Django's `UserManager.create_user`, which is not part of this model,
  stores the address through `normalize_email`: it strips the address and
  lower-cases the part after the last `@`, and leaves an address without
  `@` as it is. `Users.NormalizeEmail` models it, and `Users.CreateUser`
  stores its result. Lower-casing is modelled for ASCII letters only.
- `models/user.py` does not declare `email_confirmed`,
  `email_confirmation_token` or `email_confirmation_sent_at`, although the
  views read and write them. They are fields of `Users.User`, and a new
  account starts unconfirmed with no token.

## Model

| member | source | states |
|---|---|---|
| `Users.CreateUser` | practice_journal/journal_core/models/user.py:5-14 | a new account given no role is a student, and one given a role has it; it has 0 points, daily target 0, timezone `Europe/London`, no subscription id or status, no achievements, and the given password checks against it; the stored email is the normalised address; it fits its columns exactly when username, normalised email and names are within 150, 254 and 150 characters |
| `Users.NormalizeEmail` | practice_journal/journal_core/serializers.py:178 | the stored address is never longer than the one given, an address without `@` is kept exactly, and only the empty address normalises to empty |
| `Users.NormalizeEmailFollowsDefinition` | practice_journal/journal_core/serializers.py:178 | normalising equals the reference reading: strip, and if the stripped address has an `@`, lower-case what follows its last `@`; otherwise keep the address as given |
| `Users.NormalizeEmailLowersDomain` | practice_journal/journal_core/serializers.py:178 | an address `local@domain` with no whitespace at either end and no `@` in the domain normalises to `local@` followed by the lower-cased domain |
| `Users.NormalizeEmailIdempotent` | practice_journal/journal_core/serializers.py:178 | normalising an already normalised address changes nothing |
| `Users.Get` | practice_journal/payments/views.py:82-86 | `.get` finds an account exactly when one row matches; it reports not-found for none and an error for several |
| `Users.UniqueEmailLookup` | practice_journal/payments/views.py:82 | when non-empty emails are unique, looking up a non-empty email never raises `MultipleObjectsReturned` |
| `Text.Strip` | practice_journal/journal_core/views.py:138 | the stripped username is a contiguous slice of the input, only whitespace is cut from either side, and it neither starts nor ends with whitespace |
| `Text.StripIdempotent` | practice_journal/journal_core/views.py:138 | stripping an already stripped string changes nothing |
| `Text.StripEmptyIffAllSpace` | practice_journal/journal_core/views.py:138-140 | the stripped string is empty exactly when the input is all whitespace |
| `Payments.HandleWebhook` | practice_journal/payments/views.py:63-90 | an unverified payload gets 400 and no change; another event kind, or a checkout without both subscription and email, gets 200 and no change; only `subscription_id` is ever written, and only for accounts with the session's email; every reply other than 200 leaves the store unchanged |
| `Payments.WebhookLinksSubscription` | practice_journal/payments/views.py:76-84 | a completed checkout for a registered address gets 200 and sets that account's subscription id; its `subscription_status` and every other account stay as they were |
| `Payments.WebhookUnknownEmail` | practice_journal/payments/views.py:85-90 | a completed checkout for an address no account has gets 200 and changes nothing |
| `Payments.WebhookReplayIsIdempotent` | practice_journal/payments/views.py:82-84 | delivering the same event a second time yields the same reply and the same store as delivering it once |
| `Payments.WebhookPreservesValidStore` | practice_journal/journal_core/models/user.py:9 | the webhook never stores a subscription id longer than its 100-character column |
| `Payments.WebhookSharedEmailFails` | practice_journal/payments/views.py:82-86 | when two accounts share the session's email, the handler fails with an unhandled error and links nobody |
| `Payments.ConfirmSubscription` | practice_journal/payments/views.py:41-55 | a missing session id, a failed retrieval, or a session without a subscription gets 400 and no change; a retrieved subscription that fits its column gets 200; success writes only the requester's subscription id |
| `Payments.ConfirmSubscriptionPreservesValidStore` | practice_journal/payments/views.py:50-55 | confirming keeps every record within its columns and leaves every other account unchanged |
| `Practice.CatalogueIdsIncreasing` | practice_journal/journal_core/models/practice.py:6-11 | the catalogue lists its four ids in increasing order, so no id twice |
| `Practice.Eligible` | practice_journal/journal_core/models/practice.py:53-58 | an entry is eligible exactly when it is in the catalogue, of streak type, and not already held |
| `Practice.EligibleKeepsOrder` | practice_journal/journal_core/models/practice.py:53-58 | the eligible entries keep the catalogue's increasing id order |
| `Practice.EligibleIgnoresValue` | practice_journal/journal_core/models/practice.py:56 | changing the entries' streak values changes nothing about which ids are eligible |
| `Practice.AwardAchievements` | practice_journal/journal_core/models/practice.py:47-63 | the held list survives as a prefix; afterwards every streak id of the catalogue is held; appended ids are exactly the streak ids not held before; the student is saved exactly when the list changed |
| `Practice.AwardAppendsInCatalogueOrder` | practice_journal/journal_core/models/practice.py:53-62 | the ids one award appends are strictly increasing, so each is appended once, in catalogue order |
| `Practice.AwardIsIdempotent` | practice_journal/journal_core/models/practice.py:60-63 | a second award straight after the first adds nothing and saves nothing |
| `Practice.NewcomerEligibleForAll` | practice_journal/journal_core/models/practice.py:53-58 | a student who holds nothing is eligible for every catalogue entry, because every entry is of streak type |
| `Practice.FirstPracticeEarnsEverything` | practice_journal/journal_core/models/practice.py:51-62 | a student with no achievements earns all four, the 30-day streak included, at the first session |
| `Practice.NewItem` | practice_journal/journal_core/models/practice.py:20-45 | an omitted rating, duration, tag list or feedback takes its declared default, and points awarded start at 0 |
| `Practice.DefaultItemIsInvalid` | practice_journal/journal_core/models/practice.py:27-30 | the default duration of 0 is below the validator's minimum of 1, so an all-default item fails validation |
| `Practice.NewItemValid` | practice_journal/journal_core/models/practice.py:23-45 | rating in 0..5, duration in 1..180 and non-blank tags of at most 50 characters give an item that passes validation |
| `Goals.NewGoal` | practice_journal/journal_core/models/goal.py:15-43 | an omitted category defaults to `streak`; the start and creation dates are both the creation day; the assigner is whatever was given |
| `Goals.DefaultGoalIsSelfSetStreak` | practice_journal/journal_core/models/goal.py:34-41 | a goal created without a category or an assigner is a self-set streak goal, and it validates when its title, description and target do |
| `Goals.UpperCaseCategoryIsInvalid` | practice_journal/journal_core/tests/test_goal.py:39-50 | `NOT_STREAK` and the tests' upper-case `STREAK` are not among the case-sensitive choices, so validation rejects them |
| `Goals.GoalString` | practice_journal/journal_core/models/goal.py:45-46 | the string form is the title, then ` (`, then the assignee's username, then `)`, and nothing else |
| `Goals.GoalStringRoundTrip` | practice_journal/journal_core/models/goal.py:45-46 | given the assignee's username, the title is read back from the string form, and the username is what sits inside the closing parentheses |
| `Goals.GoalStringExample` | practice_journal/journal_core/tests/test_goal.py:27-37 | title `Test goal` with assignee `testuser` prints as `Test goal (testuser)` |
| `Serializers.HeldEntries` | practice_journal/journal_core/serializers.py:129-132 | the listing holds exactly the catalogue entries whose id the account holds |
| `Serializers.FullAchievements` | practice_journal/journal_core/serializers.py:128-132 | the listing holds exactly the held catalogue entries, in catalogue order and each at most once, whatever the order or repetition of the stored ids |
| `Serializers.AwardedListsWholeCatalogue` | practice_journal/journal_core/serializers.py:128-132 | after one award the listing is the whole catalogue |
| `Serializers.RegisteredUsernameProblems` | practice_journal/journal_core/serializers.py:169-173 | the registration username passes exactly when it is non-empty, at most 150 characters and no account's; it is reported as taken exactly when some account has it |
| `Serializers.RegisteredEmailProblems` | practice_journal/journal_core/serializers.py:163-167 | the registration email passes exactly when it is omitted, or at most 254 characters and no account's; it is reported as taken only when it fits its column |
| `Serializers.RegisteredPasswordProblems` | practice_journal/journal_core/serializers.py:137-138 | the registration passes its password fields exactly when the password is non-empty with at least 8 characters and the confirmation is non-empty |
| `Serializers.RegistrationFieldProblems` | practice_journal/journal_core/serializers.py:135-173 | the registration fields pass exactly when username, email, both names (at most 150 characters each) and the password fields all pass; taken username, taken email and short password are each reported exactly in their own case |
| `Serializers.RegistrationProblems` | practice_journal/journal_core/serializers.py:135-173 | registration passes exactly when the username is present, at most 150 characters and unused, a supplied email is at most 254 characters and unused, supplied names are at most 150 characters, the password has at least 8 characters and the confirmation equals it; the mismatch is reported only when the field checks pass |
| `Serializers.RegistrationRoleDefaultsToStudent` | practice_journal/journal_core/tests/test_user.py:7-30 | a registration without `is_teacher` makes a student and one with `is_teacher` true a teacher; either way the account has 0 points, timezone `Europe/London` and no subscription id |
| `Serializers.RegisteredUser` | practice_journal/journal_core/serializers.py:175-179 | the created account has the requested username, the normalised requested email (an omitted one stored as empty), the requested password and role (student when omitted), and is unconfirmed with no subscription; it fits its columns exactly when the supplied username and names and the normalised email do |
| `Serializers.UpdatedUsernameProblems` | practice_journal/journal_core/serializers.py:189-200 | an updated username passes exactly when it is omitted, or non-blank, at most 150 characters and no other account's; it is reported as taken exactly when another account has it |
| `Serializers.BlankProblems` | practice_journal/journal_core/serializers.py:182-184 | a password field passes exactly when it is omitted or non-blank; a blank one is reported as missing |
| `Serializers.NewPasswordProblems` | practice_journal/journal_core/serializers.py:183 | a new password passes exactly when it is omitted or has at least 8 characters; a non-empty shorter one is reported as too short |
| `Serializers.UpdatedAccountProblems` | practice_journal/journal_core/serializers.py:188-206 | the account fields of an update pass exactly when the username passes and a supplied email (254) and names (150) fit their columns; an email already in use is never reported |
| `Serializers.UpdatedPasswordProblems` | practice_journal/journal_core/serializers.py:182-184 | the password fields of an update pass exactly when neither the current password nor the confirmation is blank and a supplied new password has at least 8 characters |
| `Serializers.UpdateFieldProblems` | practice_journal/journal_core/serializers.py:181-206 | an update's fields pass exactly when a supplied username is non-blank, at most 150 characters and no other account's, a supplied email and names fit their columns, no password field is blank, and a new password has at least 8 characters; a blank current password or confirmation is reported as missing, and an email in use never is |
| `Serializers.PasswordChangeProblem` | practice_journal/journal_core/serializers.py:208-225 | with neither new-password field given nothing is checked; otherwise it reports the first of: current password missing, current password wrong, new password missing, confirmation different |
| `Serializers.ApplyUpdate` | practice_journal/journal_core/serializers.py:227-239 | the password changes exactly when a non-empty new one is given; each supplied profile field is written; no other field changes |
| `Serializers.EmptyUpdateIsIdentity` | practice_journal/journal_core/serializers.py:235-238 | an update that supplies nothing leaves the record unchanged |
| `Serializers.ApplyUpdateIdempotent` | practice_journal/journal_core/serializers.py:227-239 | applying the same update twice gives the same record as applying it once |
| `Serializers.ItemInputProblems` | practice_journal/journal_core/models/practice.py:23-38 | an item form passes exactly when a supplied rating is in 0..5, a supplied duration in 1..180, and every tag is non-blank with at most 50 characters; a blank tag is reported as missing |
| `Serializers.CreateItem` | practice_journal/journal_core/serializers.py:27-33 | without a student in the context creation fails with a validation error; otherwise the item is the model's default-filled record for that student and the form's activity, notes, rating, duration and tags, with rating and duration 0 when omitted |
| `Serializers.CreatedItemValidIffDurationGiven` | practice_journal/journal_core/serializers.py:27-33 | an accepted item form yields a valid item exactly when it supplies the duration |
| `Serializers.GoalContentProblems` | practice_journal/journal_core/models/goal.py:15-27 | the goal's own fields pass exactly when a supplied category is one of the three choices, the title (at most 100) and description (at most 300) are non-blank, the target is in the column's range and the end date is given |
| `Serializers.GoalAccountProblems` | practice_journal/journal_core/serializers.py:47-48 | the account references pass exactly when the assignee is given and exists and a supplied `assigned_by` exists; an unknown `assigned_by` is reported |
| `Serializers.GoalInputProblems` | practice_journal/journal_core/models/goal.py:15-41 | a goal form passes exactly when its category, title, description, target and end date pass, the assignee exists, and a supplied `assigned_by` names an existing account |
| `Serializers.CreateGoal` | practice_journal/journal_core/serializers.py:52-57 | without an assigner in the context creation fails with a validation error; otherwise the goal is the model's default-filled record for the form's assignee, title, description, target, end date and category (streak when omitted), created today with the context's assigner |
| `Serializers.AcceptedGoalIsValid` | practice_journal/journal_core/models/goal.py:15-24 | a goal built from an accepted form passes model validation |
| `AccountViews.Register` | practice_journal/journal_core/views.py:25-45 | registration gets 201 exactly when the serializer accepts; otherwise it gets 400, no change and no email; success stores exactly the account the serializer's `create` builds under a fresh key, unconfirmed, keeps every other account, and sends a confirmation |
| `AccountViews.RegisterPreservesInvariants` | practice_journal/journal_core/serializers.py:163-173 | registration keeps usernames unique and every record within its username, email, name, timezone and subscription-id columns; given unique emails before, an accepted registration keeps non-empty emails unique exactly when the normalised address is empty or no account's, which holds whenever the address was typed in normal form; a refused one changes nothing |
| `AccountViews.RegisterCanShareEmail` | practice_journal/journal_core/serializers.py:163-179 | a concrete store with `a@x` where registering `a@X` passes the form, which checks the typed address, and then stores `a@x` a second time; uniqueness breaks and a checkout for `a@x` fails with 500 |
| `AccountViews.CheckUsernameAvailability` | practice_journal/journal_core/views.py:134-152 | a username blank after stripping gets 400 and not available; otherwise 200, and available exactly when no account has the stripped name |
| `AccountViews.AvailabilityIgnoresPadding` | practice_journal/journal_core/views.py:138 | surrounding whitespace does not change the answer |
| `AccountViews.BlankUsernameRefused` | practice_journal/journal_core/views.py:140-144 | a username made only of whitespace gets 400 and not available |
| `AccountViews.AvailabilityAgreesWithRegistration` | practice_journal/journal_core/serializers.py:169-173 | for a name without surrounding whitespace, "available" holds exactly when registration would not report the username as taken |
| `AccountViews.ConfirmEmail` | practice_journal/journal_core/views.py:155-179 | a missing or unknown token gets 400 and no change; success needs one account holding a valid token, and then only that account changes: confirmed, with token and sent time cleared |
| `AccountViews.ConfirmBySoleHolder` | practice_journal/journal_core/views.py:164-176 | with one holder of the token, a valid token confirms that account and an expired one gets 400 and no change |
| `AccountViews.TokenWorksOnce` | practice_journal/journal_core/views.py:172-179 | after a successful confirmation, posting the same token again gets 400 and changes nothing |
| `AccountViews.ResendConfirmation` | practice_journal/journal_core/views.py:182-195 | an already confirmed account gets 400 and no email; otherwise an email is sent, with 200 if it was delivered and 500 if not |
| `AccountViews.NoResendAfterConfirm` | practice_journal/journal_core/views.py:171-189 | once the token confirms an account, a resend for it gets 400 and sends nothing |
| `AccountViews.UpdateProfile` | practice_journal/journal_core/views.py:72-118 | another account's key gets 404; no request gets 403; 400 exactly for a field or password-change problem, with no change; 200 exactly for the requester's own key with no such problem; success writes the serializer's update, resets `email_confirmed` and sends a confirmation exactly when the email changed, and keeps both otherwise |
| `AccountViews.PasswordChangeTakesEffect` | practice_journal/journal_core/serializers.py:215-233 | an accepted password change was authorised by the correct current password, and afterwards the new password checks |
| `AccountViews.UpdatePreservesInvariants` | practice_journal/journal_core/views.py:84-86 | a profile update keeps usernames unique and every record within its username, email, name, timezone and subscription-id columns |
| `AccountViews.EmailChangeReopensConfirmation` | practice_journal/journal_core/views.py:89-92 | after an email change, a resend for the account sends a confirmation |
| `AccountViews.UpdateCanShareEmail` | practice_journal/journal_core/serializers.py:181-225 | in any store, an account can update its email to another account's non-empty address that fits the column; the update gets 200, email uniqueness breaks, and a later checkout for that address fails with 500 |
| `ResourceViews.HasObjectPermission` | practice_journal/journal_core/views.py:120-122 | as written, access is granted exactly when the method is safe and the requester owns the object |
| `ResourceViews.HasObjectPermissionIntended` | practice_journal/journal_core/views.py:120-122 | the rule the class name promises: every safe request is granted, every owner request is granted, and nothing else |
| `ResourceViews.OwnerOrReadOnlyDeniesOwnerWrites` | practice_journal/journal_core/views.py:122 | as written, an owner's `PUT` and a non-owner's `GET` are both denied; the intended rule grants both |
| `ResourceViews.WrittenPermissionWithinIntended` | practice_journal/journal_core/views.py:120-122 | whatever the class as written grants, the intended rule grants too |
| `ResourceViews.OwnRows` | practice_journal/journal_core/views.py:228-229 | a list endpoint returns exactly the rows whose owner is the requester, unchanged; the diary and recording endpoints (also lines 269-270) filter this way |
| `ResourceViews.OwnRowsPartition` | practice_journal/journal_core/views.py:269-270 | each row is listed for its owner and for no one else |
| `ResourceViews.UserQueryset` | practice_journal/journal_core/views.py:62-64 | the user listing holds only the requester's own record |
| `ResourceViews.UpdateOutsideQuerysetNotFound` | practice_journal/journal_core/views.py:75-79 | a key outside the requester's queryset gets 404 with no change, so the 403 branch is unreachable |
| `ResourceViews.PracticeItemQueryset` | practice_journal/journal_core/views.py:240-241 | the practice listing holds exactly the items whose student is the requester |
| `ResourceViews.GoalQueryset` | practice_journal/journal_core/views.py:253-254 | the goal listing holds exactly the goals assigned to the requester |
| `ResourceViews.CreatePracticeItem` | practice_journal/journal_core/views.py:243-246 | 201 exactly when the item form passes, so a blank tag gets 400; an accepted item is exactly the one the serializer's `create` builds for the requester, stored under a fresh key with nothing else changed; the requester's achievements become exactly what `award_achievements` gives, so every streak achievement is held and the earlier ones are kept as a prefix; a rejected form changes nothing |
| `ResourceViews.CreatedItemListedForCreatorOnly` | practice_journal/journal_core/views.py:240-246 | a created item is listed for its creator and for no one else |
| `ResourceViews.CreateGoalView` | practice_journal/journal_core/views.py:256-262 | an accepted goal is stored under a fresh key as exactly the goal the serializer's `create` builds with the requester as assigner, whatever `assigned_by` the form named, an existing assignee, and a valid record; an `assigned_by` naming no account gets 400; a rejected form changes nothing |
| `ResourceViews.AssignedGoalListedForAssignee` | practice_journal/journal_core/views.py:253-262 | a goal set for someone else appears in the assignee's list and not in the setter's |
| `ResourceViews.CreatePresignedUpload` | practice_journal/journal_core/views.py:293-302 | the reply is 400 exactly when the file name or the content type is missing or empty; otherwise it carries the presigner's URL and key for the requester |

## Left out

- The Stripe signature check (`construct_event`) and the session lookup
  (`Session.retrieve`) are opaque inputs. `CreateCheckoutSessionView`
  (`payments/views.py:17-36`) is left out because it only calls Stripe.
- The webhook writes no `subscription_status`, not even "active" on
  checkout. It handles no subscription-updated, subscription-deleted or
  invoice-failed events. It answers 200, not a failure, when no account has
  the checkout's email.
- Sending email through SES (`utils/ses.py`, `utils/email_utils.py`,
  `utils/user.py`) is a `delivered` input or a `confirmationSent` flag.
- Token generation and expiry are not modelled. Sending a confirmation
  regenerates the token, but that function is not part of this model. The
  store is therefore left as it was after a resend, and a new account has
  no token. `is_email_confirmation_token_valid` is an opaque predicate.
- The object-storage presigner is an opaque function (`utils/s3.py`).
- `delete_account`, `AudioRecordingViewSet.delete` and
  `save_recording_metadata` are left out: they are storage deletion and
  cascade deletes with no rule logic.
- The diary and recording models are left out: their listings are the
  generic `OwnRows` filter.
- `signals.py` is left out because its streak updater is commented out.
- Field-level checks that Django and DRF supply without showing them are
  left out:
  - email format;
  - the username character validator;
  - CharField whitespace trimming;
  - 32-bit integer ranges of `points` and `daily_target`.
- Dates and files are left out. The practice item's `date` and recording
  file are not fields of the model. Goal dates are plain day numbers, and
  the creation day is an input.
- An explicit JSON `null` for a non-nullable field is not modelled. The
  source answers it with 400, while the model reads every form value as
  either supplied or omitted (`None`); only `assigned_by` is nullable.
- Partial and full updates are modelled alike, since every update field is
  optional.
- Concurrency and webhook delivery order are left out.
- Error messages are reduced to a field and a kind of check. Where DRF
  stops at the first failing check of a field, so does the model; the
  username's length and uniqueness validators both run.
- Serializers.RegisteredUser: Django's `normalize_username` (Unicode NFKC)
  is not modelled, and the username is stored as typed. A username that
  NFKC folds onto an existing one, such as a full-width spelling, passes the
  form's uniqueness check. The source then fails with a database error (500);
  the model stores it (201). Unicode normalisation tables are out of scope.
- AccountViews.Register: the same NFKC gap applies, so the model answers 201
  where the source answers 500 for such a username.
- AccountViews.RegisterPreservesInvariants: username uniqueness holds for
  usernames as typed, not after NFKC folding, for the same reason.
- Users.NormalizeEmail: `str.lower()` is modelled for ASCII letters only;
  non-ASCII capitals in the domain are kept.
- Users.Get: `MultipleObjectsReturned` is modelled as a 500 reply rather
  than assumed away. Lemmas that need a single match assume unique
  non-empty emails (`Users.UniqueEmails`). Empty emails are exempt, because
  an email omitted at registration is stored empty.

## Findings

| source | as written | input that shows it | evidently intended | confidence | as-written member | corrected member |
|---|---|---|---|---|---|---|
| practice_journal/journal_core/views.py:120-122 | `IsOwnerOrReadOnly` grants access only when the method is safe AND the requester owns the object | the owner sending `PUT` is denied, and another user sending `GET` is denied | safe methods for everyone, writes for the owner (safe OR owner), as the class name says | not executed; medium, because no view in these files uses the class | `ResourceViews.HasObjectPermission` (counterexample: `ResourceViews.OwnerOrReadOnlyDeniesOwnerWrites`) | `ResourceViews.HasObjectPermissionIntended` (with `ResourceViews.WrittenPermissionWithinIntended`) |

A related observation, not claimed as a finding: two accounts can end up
sharing one email in two ways, and the webhook then fails on that email.
The update serializer does not check that a new email is free
(`AccountViews.UpdateCanShareEmail`). Registration checks the address as
typed, but `create_user` stores it normalised, so `a@X` is accepted next to
an existing `a@x` (`AccountViews.RegisterCanShareEmail`). The model keeps
the code's behaviour in both cases.

=== FILE: account_views.dfy ===
/** The account endpoints of `journal_core/views.py`: registration, username
    availability, the email-confirmation state machine and the profile update.
    Email delivery is an input (`delivered`) or recorded as a flag in the
    reply; the token check `is_email_confirmation_token_valid` is an input
    predicate. */
module AccountViews {
  import opened Common
  import opened Text
  import opened Users
  import opened Serializers
  import Payments

  // ---------------------------------------------------------------------
  // UserRegistrationView.create

  /** Status, store, and whether a confirmation email was sent. */
  datatype MailReply = MailReply(status: int, users: UserStore, confirmationSent: bool)

  /** Registration under the fresh key `newId`. */
  function Register(s: UserStore, req: RegistrationRequest, newId: UserId): (r: MailReply)
    requires newId !in s
    ensures r.status == StatusCreated <==> RegistrationProblems(s, req) == {}
    ensures r.status != StatusCreated ==> r == MailReply(StatusBadRequest, s, false)
    ensures r.status == StatusCreated ==>
              && r.users.Keys == s.Keys + {newId}
              && (forall id :: id in s ==> r.users[id] == s[id])
              && r.users[newId] == RegisteredUser(req)
              && r.users[newId].username == req.username.value
              && CheckPassword(r.users[newId], req.password.value)
              && !r.users[newId].emailConfirmed
              && r.confirmationSent
  {
    if RegistrationProblems(s, req) != {} then MailReply(StatusBadRequest, s, false)
    else MailReply(StatusCreated, s[newId := RegisteredUser(req)], true)
  }

  /** Registration keeps usernames unique and every record within its
      columns. The form checks the address as typed while the account
      stores it normalised, so non-empty emails stay unique exactly when the
      normalised address is empty or unused, which an address already in
      normal form guarantees (`RegisterCanShareEmail` shows one that is not). */
  lemma RegisterPreservesInvariants(s: UserStore, req: RegistrationRequest, newId: UserId)
    requires newId !in s
    requires ValidStore(s) && UniqueEmails(s) && UniqueUsernames(s)
    ensures var r := Register(s, req, newId);
            ValidStore(r.users) && UniqueUsernames(r.users)
    ensures var r := Register(s, req, newId);
            var stored := NormalizeEmail(req.email.GetOr(""));
            && (r.status != StatusCreated ==> UniqueEmails(r.users))
            && (r.status == StatusCreated ==> (UniqueEmails(r.users) <==> stored == "" || EmailUnused(s, stored)))
            && (r.status == StatusCreated && stored == req.email.GetOr("") ==> UniqueEmails(r.users))
  {
  }

  // ---------------------------------------------------------------------
  // check_username_availability

  /** Status and the `available` flag of the reply. */
  datatype Availability = Availability(status: int, available: bool)

  /** The `username` query parameter, stripped; absent counts as empty. */
  function CheckUsernameAvailability(s: UserStore, username: Option<string>): (r: Availability)
    ensures var name := Strip(username.GetOr(""));
            && (name == [] ==> r == Availability(StatusBadRequest, false))
            && (name != [] ==> r.status == StatusOk
                               && (r.available <==> forall id :: id in s ==> s[id].username != name))
  {
    var name := Strip(username.GetOr(""));
    if name == [] then Availability(StatusBadRequest, false)
    else Availability(StatusOk, WithUsername(s, name) == {})
  }

  /** Surrounding whitespace does not change the answer. */
  lemma AvailabilityIgnoresPadding(s: UserStore, username: string)
    ensures CheckUsernameAvailability(s, Some(username)) == CheckUsernameAvailability(s, Some(Strip(username)))
  {
    StripIdempotent(username);
  }

  /** A query made only of whitespace is refused. */
  lemma BlankUsernameRefused(s: UserStore, username: string)
    requires AllSpace(username)
    ensures CheckUsernameAvailability(s, Some(username)) == Availability(StatusBadRequest, false)
  {
    StripEmptyIffAllSpace(username);
  }

  /** For a name without surrounding whitespace, "available" agrees with the
      registration serializer's username check. */
  lemma AvailabilityAgreesWithRegistration(s: UserStore, req: RegistrationRequest, name: string)
    requires req.username == Some(name) && name != [] && Strip(name) == name
    ensures CheckUsernameAvailability(s, Some(name)).available
            <==> Taken(Username) !in RegistrationProblems(s, req)
  {
    AvailableIffUnused(s, name);
    NotTakenIffUnused(s, req, name);
  }

  lemma AvailableIffUnused(s: UserStore, name: string)
    requires name != [] && Strip(name) == name
    ensures CheckUsernameAvailability(s, Some(name)).available <==> WithUsername(s, name) == {}
  {
  }

  lemma NotTakenIffUnused(s: UserStore, req: RegistrationRequest, name: string)
    requires req.username == Some(name) && name != []
    ensures Taken(Username) !in RegistrationProblems(s, req) <==> WithUsername(s, name) == {}
  {
  }

  // ---------------------------------------------------------------------
  // confirm_email

  /** The record after a successful confirmation. */
  function Confirmed(u: User): (c: User)
    ensures c.emailConfirmed && c.confirmationToken == None && c.confirmationSentAt == None
    ensures c.(emailConfirmed := u.emailConfirmed, confirmationToken := u.confirmationToken,
               confirmationSentAt := u.confirmationSentAt) == u
  {
    u.(emailConfirmed := true, confirmationToken := None, confirmationSentAt := None)
  }

  /** `confirm_email` with the posted `token`. */
  function ConfirmEmail(s: UserStore, token: Option<string>, tokenValid: User -> bool): (r: Reply)
    ensures !Truthy(token) ==> r == Reply(StatusBadRequest, s)
    ensures token.Some? && (forall id :: id in s ==> s[id].confirmationToken != token)
            ==> r == Reply(StatusBadRequest, s)
    ensures r.status in {StatusOk, StatusBadRequest, StatusServerError}
    ensures r.status != StatusOk ==> r.users == s
    ensures r.status == StatusOk ==>
              exists id :: && id in s && s[id].confirmationToken == token && tokenValid(s[id])
                           && (forall other :: other in s && s[other].confirmationToken == token ==> other == id)
                           && r.users == s[id := Confirmed(s[id])]
  {
    if !Truthy(token) then Reply(StatusBadRequest, s)
    else
      match Get(WithToken(s, token.value))
      case NotFound => Reply(StatusBadRequest, s)
      case Multiple => Reply(StatusServerError, s)
      case Found(id) =>
        if !tokenValid(s[id]) then Reply(StatusBadRequest, s)
        else Reply(StatusOk, s[id := Confirmed(s[id])])
  }

  /** When exactly one account holds the token, the outcome is decided by
      the token's validity: confirmed if valid, refused with no change if
      expired. */
  lemma ConfirmBySoleHolder(s: UserStore, id: UserId, token: string, tokenValid: User -> bool)
    requires id in s && s[id].confirmationToken == Some(token) && token != ""
    requires forall other :: other in s && s[other].confirmationToken == Some(token) ==> other == id
    ensures tokenValid(s[id]) ==>
              ConfirmEmail(s, Some(token), tokenValid) == Reply(StatusOk, s[id := Confirmed(s[id])])
    ensures !tokenValid(s[id]) ==> ConfirmEmail(s, Some(token), tokenValid) == Reply(StatusBadRequest, s)
  {
    assert WithToken(s, token) == {id};
  }

  /** A token confirms once: posting it again finds no account. */
  lemma TokenWorksOnce(s: UserStore, token: string, tokenValid: User -> bool)
    requires ConfirmEmail(s, Some(token), tokenValid).status == StatusOk
    ensures var after := ConfirmEmail(s, Some(token), tokenValid).users;
            ConfirmEmail(after, Some(token), tokenValid) == Reply(StatusBadRequest, after)
  {
  }

  // ---------------------------------------------------------------------
  // resend_email_confirmation

  /** Status and whether a confirmation email was sent. */
  datatype ResendReply = ResendReply(status: int, confirmationSent: bool)

  /** `resend_email_confirmation` for the authenticated `requester`;
      `delivered` is what the mail service reported. */
  function ResendConfirmation(s: UserStore, requester: UserId, delivered: bool): (r: ResendReply)
    requires requester in s
    ensures s[requester].emailConfirmed ==> r == ResendReply(StatusBadRequest, false)
    ensures !s[requester].emailConfirmed ==>
              r.confirmationSent && (r.status == StatusOk <==> delivered)
              && (r.status == StatusServerError <==> !delivered)
  {
    if s[requester].emailConfirmed then ResendReply(StatusBadRequest, false)
    else if delivered then ResendReply(StatusOk, true)
    else ResendReply(StatusServerError, true)
  }

  /** Once an account is confirmed, a resend for it is refused and sends
      nothing. */
  lemma NoResendAfterConfirm(s: UserStore, id: UserId, token: string, tokenValid: User -> bool, delivered: bool)
    requires id in s && s[id].confirmationToken == Some(token)
    requires ConfirmEmail(s, Some(token), tokenValid).status == StatusOk
    ensures var after := ConfirmEmail(s, Some(token), tokenValid).users;
            ResendConfirmation(after, id, delivered) == ResendReply(StatusBadRequest, false)
  {
  }

  // ---------------------------------------------------------------------
  // UserViewSet.update

  /** `UserViewSet.update` of the account `pk` by the authenticated
      `requester`. The queryset holds only the requester, so another `pk` is
      not found before the ownership test is reached. */
  function UpdateProfile(s: UserStore, requester: UserId, pk: UserId, req: UpdateRequest): (r: MailReply)
    requires requester in s
    ensures pk != requester ==> r == MailReply(StatusNotFound, s, false)
    ensures r.status != StatusForbidden
    ensures r.status in {StatusOk, StatusBadRequest, StatusNotFound}
    ensures r.status != StatusOk ==> r.users == s && !r.confirmationSent
    ensures r.status == StatusBadRequest <==>
              pk == requester
              && (UpdateFieldProblems(s, pk, req) != {} || PasswordChangeProblem(s[pk], req).Some?)
    ensures r.status == StatusOk <==>
              pk == requester && UpdateFieldProblems(s, pk, req) == {} && PasswordChangeProblem(s[pk], req).None?
    ensures r.status == StatusOk ==>
              && r.users.Keys == s.Keys
              && (forall id :: id in s && id != pk ==> r.users[id] == s[id])
              && r.users[pk].(emailConfirmed := s[pk].emailConfirmed) == ApplyUpdate(s[pk], req)
              && (r.users[pk].email != s[pk].email ==> !r.users[pk].emailConfirmed && r.confirmationSent)
              && (r.users[pk].email == s[pk].email ==>
                    r.users[pk].emailConfirmed == s[pk].emailConfirmed && !r.confirmationSent)
  {
    if pk != requester || pk !in s then MailReply(StatusNotFound, s, false)
    else if pk != requester then MailReply(StatusForbidden, s, false)
    else if UpdateFieldProblems(s, pk, req) != {} then MailReply(StatusBadRequest, s, false)
    else if PasswordChangeProblem(s[pk], req).Some? then MailReply(StatusBadRequest, s, false)
    else
      var updated := ApplyUpdate(s[pk], req);
      if updated.email != s[pk].email then
        MailReply(StatusOk, s[pk := updated.(emailConfirmed := false)], true)
      else
        MailReply(StatusOk, s[pk := updated], false)
  }

  /** An accepted password change leaves the new password as the one that
      checks. */
  lemma PasswordChangeTakesEffect(s: UserStore, requester: UserId, req: UpdateRequest)
    requires requester in s && Truthy(req.newPassword)
    requires UpdateProfile(s, requester, requester, req).status == StatusOk
    ensures CheckPassword(UpdateProfile(s, requester, requester, req).users[requester], req.newPassword.value)
    ensures CheckPassword(s[requester], req.currentPassword.value)
  {
  }

  /** Profile updates keep usernames unique and records within their columns. */
  lemma UpdatePreservesInvariants(s: UserStore, requester: UserId, pk: UserId, req: UpdateRequest)
    requires requester in s && ValidStore(s) && UniqueUsernames(s)
    ensures var r := UpdateProfile(s, requester, pk, req);
            ValidStore(r.users) && UniqueUsernames(r.users)
  {
    var r := UpdateProfile(s, requester, pk, req);
    if r.status == StatusOk {
      assert Taken(Username) !in UpdateFieldProblems(s, pk, req);
      assert req.username.Some? ==> Truthy(req.username);
    }
  }

  /** After an email change the account may ask for a new confirmation. */
  lemma EmailChangeReopensConfirmation(s: UserStore, requester: UserId, req: UpdateRequest, delivered: bool)
    requires requester in s
    requires UpdateProfile(s, requester, requester, req).status == StatusOk
    requires req.email.Some? && req.email.value != s[requester].email
    ensures var after := UpdateProfile(s, requester, requester, req).users;
            ResendConfirmation(after, requester, delivered).confirmationSent
  {
  }

  /** The normal forms of the addresses the examples below use. */
  lemma ExampleAddresses()
    ensures NormalizeEmail("a@x") == "a@x"
    ensures NormalizeEmail("a@X") == "a@x"
  {
    NormalizeEmailLowersDomain("a", "x");
    NormalizeEmailLowersDomain("a", "X");
  }

  /** The registration form checks the address as typed but the account
      stores it normalised, so an address that differs from a stored one only
      in the case of its domain is accepted and ends up shared; a checkout for
      that address then fails in the webhook with an unhandled error. */
  lemma RegisterCanShareEmail()
    ensures var alice := CreateUser("alice", "a@x", "password1", "", "", None);
            var s := map[0 := alice];
            var req := RegistrationRequest(Some("bob"), Some("a@X"),
                                           Some("password2"), Some("password2"), None, None, None);
            var r := Register(s, req, 1);
            && UniqueEmails(s)
            && r.status == StatusCreated
            && !UniqueEmails(r.users)
            && Payments.HandleWebhook(r.users, Payments.Verified(Payments.Event(
                 Payments.CheckoutSessionCompleted,
                 Payments.CheckoutSession(Some("sub_123"), Some("a@x"))))).status
               == StatusServerError
  {
    ExampleAddresses();
    var alice := CreateUser("alice", "a@x", "password1", "", "", None);
    var s := map[0 := alice];
    var req := RegistrationRequest(Some("bob"), Some("a@X"),
                                   Some("password2"), Some("password2"), None, None, None);
    assert "a@X" != "a@x" by {
      assert "a@X"[2] != "a@x"[2];
    }
    assert "bob" != "alice";
    assert EmailUnused(s, "a@X") && UsernameUnused(s, "bob");
    assert RegistrationProblems(s, req) == {};
    var r := Register(s, req, 1);
    assert r.users[1].email == "a@x";
    Payments.WebhookSharedEmailFails(r.users, 0, 1, "sub_123");
  }

  /** The update serializer does not check that a new email is free, so any
      account can take the non-empty address of another; a checkout for that
      address then fails in the webhook with an unhandled error. */
  lemma UpdateCanShareEmail(s: UserStore, holder: UserId, taker: UserId)
    requires holder in s && taker in s && holder != taker
    requires s[holder].email != "" && |s[holder].email| <= EmailMaxLength
    ensures var req := UpdateRequest(None, Some(s[holder].email), None, None, None, None, None, None, None);
            var r := UpdateProfile(s, taker, taker, req);
            && r.status == StatusOk
            && r.users[taker].email == s[holder].email
            && !UniqueEmails(r.users)
            && Payments.HandleWebhook(r.users, Payments.Verified(Payments.Event(
                 Payments.CheckoutSessionCompleted,
                 Payments.CheckoutSession(Some("sub_123"), Some(s[holder].email))))).status
               == StatusServerError
  {
    var req := UpdateRequest(None, Some(s[holder].email), None, None, None, None, None, None, None);
    assert UpdateFieldProblems(s, taker, req) == {};
    var r := UpdateProfile(s, taker, taker, req);
    assert r.users[taker].email == s[holder].email;
    Payments.WebhookSharedEmailFails(r.users, holder, taker, "sub_123");
  }
}

=== FILE: common.dfy ===
/** Small shared vocabulary: optional values, Python truthiness of optional
    strings, results with an error side, and the HTTP status codes the views
    answer with. */
module Common {

  /** A nullable value: `None` is Python's `None`. */
  datatype Option<+T> = None | Some(value: T) {
    function GetOr(default: T): T {
      match this
      case Some(v) => v
      case None => default
    }
  }

  /** A computation that either produces a value or fails with an error. */
  datatype Result<+T, +E> = Ok(value: T) | Err(error: E)

  /** Primary keys of user rows. */
  type UserId = nat

  /** Python's `bool(x)` for a value that is `None` or a string:
      `None` and the empty string are false, everything else is true. */
  predicate Truthy(o: Option<string>) {
    o.Some? && |o.value| > 0
  }

  const StatusOk := 200
  const StatusCreated := 201
  const StatusBadRequest := 400
  const StatusForbidden := 403
  const StatusNotFound := 404
  /** What an exception that no handler catches turns into. */
  const StatusServerError := 500
}

=== FILE: goals.dfy ===
/** Practice goals (`models/goal.py`): the category choices, the field
    bounds the serializer and `full_clean` enforce, the creation defaults, and the string form. */
module Goals {
  import opened Common
  import opened Users

  const Streak := "streak"
  const TimeSpent := "time"
  const SessionCount := "sessions"

  const CategoryMaxLength := 20
  const TitleMaxLength := 100
  const DescriptionMaxLength := 300
  /** Upper end of a `PositiveIntegerField`. */
  const PositiveIntegerMax := 2147483647

  /** A goal. `assignedBy` is `None` for a goal the student set themself;
      dates are day numbers. */
  datatype Goal = Goal(
    category: string,
    title: string,
    description: string,
    targetCount: int,
    startDate: int,
    endDate: int,
    assignedTo: UserId,
    assignedBy: Option<UserId>,
    creationDate: int)

  /** The category is one of the declared choices. */
  predicate ValidCategory(c: string) {
    c == Streak || c == TimeSpent || c == SessionCount
  }

  /** What the serializer and `full_clean` accept: a declared category, a
      non-blank title and description within their lengths, and a
      non-negative target. The description's limit is the serializer's only:
      `full_clean` ignores a `TextField`'s `max_length`. */
  predicate ValidGoal(g: Goal) {
    && ValidCategory(g.category) && |g.category| <= CategoryMaxLength
    && 0 < |g.title| <= TitleMaxLength
    && 0 < |g.description| <= DescriptionMaxLength
    && 0 <= g.targetCount <= PositiveIntegerMax
  }

  /** `Goal.objects.create(...)`: no validation; the category defaults to
      `streak`, the assigner to nobody, and both automatic dates to `today`. */
  function NewGoal(assignedTo: UserId, title: string, description: string, targetCount: int,
                   endDate: int, today: int, category: Option<string>,
                   assignedBy: Option<UserId>): (g: Goal)
    ensures g.category == category.GetOr(Streak)
    ensures g.assignedBy == assignedBy && g.assignedTo == assignedTo
    ensures g.startDate == today && g.creationDate == today
    ensures g.title == title && g.description == description
    ensures g.targetCount == targetCount && g.endDate == endDate
  {
    Goal(category.GetOr(Streak), title, description, targetCount, today, endDate,
         assignedTo, assignedBy, today)
  }

  /** A goal created without a category or an assigner is a self-set streak
      goal, and it validates whenever its text and target do. */
  lemma DefaultGoalIsSelfSetStreak(assignedTo: UserId, title: string, description: string,
                                   targetCount: int, endDate: int, today: int)
    requires 0 < |title| <= TitleMaxLength && 0 < |description| <= DescriptionMaxLength
    requires 0 <= targetCount <= PositiveIntegerMax
    ensures var g := NewGoal(assignedTo, title, description, targetCount, endDate, today, None, None);
            g.category == Streak && g.assignedBy == None && ValidGoal(g)
  {
  }

  /** Choices are case-sensitive: the upper-case `STREAK` the model tests
      store, like `NOT_STREAK`, fails validation although `create` accepts it. */
  lemma UpperCaseCategoryIsInvalid()
    ensures !ValidCategory("STREAK") && !ValidCategory("NOT_STREAK")
  {
    assert "STREAK"[0] != Streak[0];
    assert "NOT_STREAK"[0] != Streak[0];
  }

  /** `Goal.__str__`: the title, then the assignee's username in parentheses. */
  function GoalString(g: Goal, assignee: User): (s: string)
    ensures |s| == |g.title| + |assignee.username| + 3
    ensures s[..|g.title|] == g.title
    ensures s[|g.title|..|g.title| + 2] == " ("
    ensures s[|g.title| + 2..|s| - 1] == assignee.username
    ensures s[|s| - 1] == ')'
  {
    g.title + " (" + assignee.username + ")"
  }

  /** Recovers the title from a goal's string form, given the username. */
  function TitleOf(s: string, username: string): (t: string)
    requires |s| >= |username| + 3
    ensures |t| + |username| + 3 == |s|
    ensures t == s[..|t|]
  {
    s[..|s| - |username| - 3]
  }

  /** Given the assignee's username, the string form gives back the goal's
      title, and the username sits between the closing parentheses. */
  lemma GoalStringRoundTrip(g: Goal, assignee: User)
    ensures var s := GoalString(g, assignee);
            && TitleOf(s, assignee.username) == g.title
            && s[|s| - |assignee.username| - 1..|s| - 1] == assignee.username
  {
  }

  /** The example the tests check: `"Test goal (testuser)"`. */
  lemma GoalStringExample(g: Goal, assignee: User)
    requires g.title == "Test goal" && assignee.username == "testuser"
    ensures GoalString(g, assignee) == "Test goal (testuser)"
  {
  }
}

=== FILE: payments.dfy ===
/** The payment-processor side of an account (`payments/views.py`): the
    webhook that links a completed checkout to an account, and the explicit
    confirm-subscription call the front end makes after checkout. The
    processor's signature check and its session lookup are inputs. */
module Payments {
  import opened Common
  import opened Users

  const CheckoutSessionCompleted := "checkout.session.completed"

  /** The `data.object` of a checkout-session event, reduced to the two keys
      the handler reads. */
  datatype CheckoutSession = CheckoutSession(subscription: Option<string>, customerEmail: Option<string>)

  /** A verified event: its `type` and its payload object. */
  datatype Event = Event(kind: string, session: CheckoutSession)

  /** What `stripe.Webhook.construct_event` made of the raw body and the
      signature header: a `ValueError`, a `SignatureVerificationError`, or
      the event. */
  datatype Verification = MalformedPayload | BadSignature | Verified(event: Event)

  /** The two records agree on everything but the subscription id. */
  predicate SameButSubscriptionId(a: User, b: User) {
    a.(subscriptionId := b.subscriptionId) == b
  }

  /** `StripeWebhookView.post`. A write goes to the single account whose email
      is the session's `customer_email`; a second account with that address
      makes `.get` raise, and an over-long id makes the save raise, neither of
      which the handler catches. */
  function HandleWebhook(s: UserStore, v: Verification): (r: Reply)
    ensures !v.Verified? ==> r == Reply(StatusBadRequest, s)
    ensures v.Verified? && v.event.kind != CheckoutSessionCompleted ==> r == Reply(StatusOk, s)
    ensures v.Verified? && !(Truthy(v.event.session.subscription) && Truthy(v.event.session.customerEmail))
            ==> r == Reply(StatusOk, s)
    ensures r.users.Keys == s.Keys
    ensures forall id :: id in s ==> SameButSubscriptionId(s[id], r.users[id])
    ensures forall id :: id in s && r.users[id] != s[id] ==>
              && v.Verified?
              && s[id].email == v.event.session.customerEmail.value
              && r.users[id].subscriptionId == v.event.session.subscription
    ensures r.status in {StatusOk, StatusBadRequest, StatusServerError}
    ensures r.status != StatusOk ==> r.users == s
  {
    match v
    case MalformedPayload => Reply(StatusBadRequest, s)
    case BadSignature => Reply(StatusBadRequest, s)
    case Verified(event) =>
      if event.kind != CheckoutSessionCompleted then Reply(StatusOk, s)
      else
        var subscription := event.session.subscription;
        var email := event.session.customerEmail;
        if !(Truthy(subscription) && Truthy(email)) then Reply(StatusOk, s)
        else
          match Get(WithEmail(s, email.value))
          case NotFound => Reply(StatusOk, s)
          case Multiple => Reply(StatusServerError, s)
          case Found(id) =>
            var linked := s[id].(subscriptionId := subscription);
            if !FitsColumns(linked) then Reply(StatusServerError, s)
            else Reply(StatusOk, s[id := linked])
  }

  /** A checkout completion for a registered address sets that account's
      subscription id and nothing else. */
  lemma WebhookLinksSubscription(s: UserStore, id: UserId, subscription: string, email: string)
    requires id in s && s[id].email == email && email != ""
    requires UniqueEmails(s)
    requires subscription != "" && |subscription| <= SubscriptionIdMaxLength
    requires FitsColumns(s[id])
    ensures var r := HandleWebhook(s, Verified(Event(CheckoutSessionCompleted,
                                                     CheckoutSession(Some(subscription), Some(email)))));
            && r.status == StatusOk
            && r.users[id].subscriptionId == Some(subscription)
            && r.users[id].subscriptionStatus == s[id].subscriptionStatus
            && forall other :: other in s && other != id ==> r.users[other] == s[other]
  {
    assert WithEmail(s, email) == {id};
  }

  /** An address no account has is acknowledged without any change. */
  lemma WebhookUnknownEmail(s: UserStore, subscription: string, email: string)
    requires forall id :: id in s ==> s[id].email != email
    ensures HandleWebhook(s, Verified(Event(CheckoutSessionCompleted,
                                            CheckoutSession(Some(subscription), Some(email)))))
            == Reply(StatusOk, s)
  {
    assert WithEmail(s, email) == {};
  }

  /** Delivering the same event twice ends in the same store as delivering it
      once, with the same answer. */
  lemma WebhookReplayIsIdempotent(s: UserStore, v: Verification)
    ensures var once := HandleWebhook(s, v);
            HandleWebhook(once.users, v) == once
  {
    var once := HandleWebhook(s, v);
    if v.Verified? && v.event.kind == CheckoutSessionCompleted
       && Truthy(v.event.session.subscription) && Truthy(v.event.session.customerEmail) {
      var email := v.event.session.customerEmail.value;
      assert WithEmail(once.users, email) == WithEmail(s, email);
    }
  }

  /** The webhook never stores a record that does not fit its columns. */
  lemma WebhookPreservesValidStore(s: UserStore, v: Verification)
    requires ValidStore(s)
    ensures ValidStore(HandleWebhook(s, v).users)
  {
  }

  /** Once two accounts share an address, a checkout for that address is an
      unhandled error and links nobody. */
  lemma WebhookSharedEmailFails(s: UserStore, a: UserId, b: UserId, subscription: string)
    requires a in s && b in s && a != b && s[a].email == s[b].email && s[a].email != ""
    requires subscription != ""
    ensures HandleWebhook(s, Verified(Event(CheckoutSessionCompleted,
                                            CheckoutSession(Some(subscription), Some(s[a].email)))))
            == Reply(StatusServerError, s)
  {
    assert {a, b} <= WithEmail(s, s[a].email);
    assert |{a, b}| == 2;
    SubsetCardinality({a, b}, WithEmail(s, s[a].email));
  }

  lemma SubsetCardinality(small: set<UserId>, big: set<UserId>)
    requires small <= big
    ensures |small| <= |big|
  {
    assert big == small + (big - small);
  }

  /** What `stripe.checkout.Session.retrieve` gave back: an error, or a
      session whose `subscription` key may be absent. */
  datatype Retrieval = RetrieveFailed | Retrieved(subscription: Option<string>)

  /** `ConfirmSubscriptionView.post` for an authenticated `requester`. Every
      exception after the `session_id` check, including a failing save, is
      answered with 400. */
  function ConfirmSubscription(s: UserStore, requester: UserId, sessionId: Option<string>,
                               retrieve: string -> Retrieval): (r: Reply)
    requires requester in s
    ensures !Truthy(sessionId) ==> r == Reply(StatusBadRequest, s)
    ensures Truthy(sessionId) && retrieve(sessionId.value).RetrieveFailed? ==> r == Reply(StatusBadRequest, s)
    ensures (Truthy(sessionId) && retrieve(sessionId.value).Retrieved?
             && !Truthy(retrieve(sessionId.value).subscription)) ==> r == Reply(StatusBadRequest, s)
    ensures (Truthy(sessionId) && retrieve(sessionId.value).Retrieved?
             && Truthy(retrieve(sessionId.value).subscription)
             && |retrieve(sessionId.value).subscription.value| <= SubscriptionIdMaxLength
             && FitsColumns(s[requester])) ==> r.status == StatusOk
    ensures r.status in {StatusOk, StatusBadRequest}
    ensures r.status == StatusOk ==>
              && Truthy(sessionId)
              && retrieve(sessionId.value).Retrieved?
              && r.users == s[requester := s[requester].(subscriptionId := retrieve(sessionId.value).subscription)]
    ensures r.status != StatusOk ==> r.users == s
  {
    if !Truthy(sessionId) then Reply(StatusBadRequest, s)
    else
      match retrieve(sessionId.value)
      case RetrieveFailed => Reply(StatusBadRequest, s)
      case Retrieved(subscription) =>
        if !Truthy(subscription) then Reply(StatusBadRequest, s)
        else
          var linked := s[requester].(subscriptionId := subscription);
          if !FitsColumns(linked) then Reply(StatusBadRequest, s)
          else Reply(StatusOk, s[requester := linked])
  }

  /** Confirming a subscription never stores a record that does not fit its
      columns, and touches no account but the requester's. */
  lemma ConfirmSubscriptionPreservesValidStore(s: UserStore, requester: UserId, sessionId: Option<string>,
                                               retrieve: string -> Retrieval)
    requires requester in s && ValidStore(s)
    ensures var r := ConfirmSubscription(s, requester, sessionId, retrieve);
            && ValidStore(r.users)
            && forall id :: id in s && id != requester ==> r.users[id] == s[id]
  {
  }
}

=== FILE: practice.dfy ===
/** Practice sessions (`models/practice.py`): the fixed achievement catalogue,
    `PracticeItem.award_achievements`, and the bounds the item's fields are
    validated against. */
module Practice {
  import opened Common

  /** One catalogue entry; `kind` is the entry's `type` key. */
  datatype Achievement = Achievement(id: int, name: string, description: string, kind: string, value: int)

  const StreakKind := "streak"

  /** The four achievements the application knows about. */
  const Catalogue: seq<Achievement> := [
    Achievement(1, "First Practice", "Complete your first practice session", "streak", 1),
    Achievement(2, "2-Day Streak", "Practice 2 days in a row", "streak", 2),
    Achievement(3, "7-Day Streak", "Practice 7 days in a row", "streak", 7),
    Achievement(4, "30-Day Streak", "Practice 30 days in a row", "streak", 30)
  ]

  /** Entries listed in strictly increasing id order, so in particular no id
      is listed twice. */
  predicate IdsIncreasing(entries: seq<Achievement>) {
    forall i, j :: 0 <= i < j < |entries| ==> entries[i].id < entries[j].id
  }

  lemma CatalogueIdsIncreasing()
    ensures IdsIncreasing(Catalogue)
  {
  }

  /** The ids of a list of entries, in the same order. */
  function Ids(entries: seq<Achievement>): (r: seq<int>)
    ensures |r| == |entries|
    ensures forall i :: 0 <= i < |r| ==> r[i] == entries[i].id
  {
    if entries == [] then [] else [entries[0].id] + Ids(entries[1..])
  }

  /** The entries `award_achievements` finds eligible: of streak type and not
      yet held. The streak-length condition is commented out in the source,
      so an entry's `value` plays no part. */
  function Eligible(catalogue: seq<Achievement>, held: seq<int>): (r: seq<Achievement>)
    ensures forall a :: a in r <==> a in catalogue && a.kind == StreakKind && a.id !in held
    ensures |r| <= |catalogue|
  {
    if catalogue == [] then []
    else
      var head := catalogue[0];
      (if head.kind == StreakKind && head.id !in held then [head] else [])
        + Eligible(catalogue[1..], held)
  }

  /** Eligible entries keep the catalogue's id order. */
  lemma {:induction false} EligibleKeepsOrder(catalogue: seq<Achievement>, held: seq<int>)
    requires IdsIncreasing(catalogue)
    ensures IdsIncreasing(Eligible(catalogue, held))
  {
    if catalogue != [] {
      var head := catalogue[0];
      var rest := Eligible(catalogue[1..], held);
      EligibleKeepsOrder(catalogue[1..], held);
      forall a | a in rest ensures head.id < a.id {
        var k :| 0 <= k < |catalogue[1..]| && catalogue[1..][k] == a;
        assert catalogue[k + 1] == a;
      }
    }
  }

  /** Two catalogues that differ only in their entries' `value`s make the same
      ids eligible: no streak length is ever compared. */
  lemma {:induction false} EligibleIgnoresValue(c1: seq<Achievement>, c2: seq<Achievement>, held: seq<int>)
    requires |c1| == |c2|
    requires forall i :: 0 <= i < |c1| ==> c1[i].(value := c2[i].value) == c2[i]
    ensures Ids(Eligible(c1, held)) == Ids(Eligible(c2, held))
  {
    if c1 != [] {
      EligibleIgnoresValue(c1[1..], c2[1..], held);
      IdsAppend(if c1[0].kind == StreakKind && c1[0].id !in held then [c1[0]] else [], Eligible(c1[1..], held));
      IdsAppend(if c2[0].kind == StreakKind && c2[0].id !in held then [c2[0]] else [], Eligible(c2[1..], held));
    }
  }

  lemma IdsAppend(a: seq<Achievement>, b: seq<Achievement>)
    ensures Ids(a + b) == Ids(a) + Ids(b)
  {
    assert |Ids(a + b)| == |Ids(a) + Ids(b)|;
    forall i | 0 <= i < |Ids(a + b)| ensures Ids(a + b)[i] == (Ids(a) + Ids(b))[i] {
      if i >= |a| {
        assert (a + b)[i] == b[i - |a|];
      }
    }
  }

  /** The student's achievement list after the call, and whether the student
      was saved. */
  datatype Award = Award(achievements: seq<int>, saved: bool)

  /** `PracticeItem.award_achievements` on a student holding `held`. */
  function AwardAchievements(held: seq<int>): (r: Award)
    ensures held <= r.achievements
    ensures r.saved <==> r.achievements != held
    ensures forall a :: a in Catalogue && a.kind == StreakKind ==> a.id in r.achievements
    ensures forall i :: |held| <= i < |r.achievements| ==> r.achievements[i] !in held
    ensures forall x :: x in r.achievements[|held|..] <==>
              x !in held && exists a :: a in Catalogue && a.kind == StreakKind && a.id == x
  {
    var eligible := Eligible(Catalogue, held);
    var added := Ids(eligible);
    MissingStreakIdsAdded(held);
    if eligible == [] then Award(held, false)
    else
      assert (held + added)[|held|..] == added;
      Award(held + added, true)
  }

  /** The ids of the eligible entries are exactly the streak ids not yet
      held. */
  lemma MissingStreakIdsAdded(held: seq<int>)
    ensures forall x :: x in Ids(Eligible(Catalogue, held)) <==>
              x !in held && exists a :: a in Catalogue && a.kind == StreakKind && a.id == x
    ensures forall a :: a in Catalogue && a.kind == StreakKind && a.id !in held ==>
              a.id in Ids(Eligible(Catalogue, held))
  {
    var eligible := Eligible(Catalogue, held);
    var added := Ids(eligible);
    forall a | a in eligible ensures a.id in added {
      var k :| 0 <= k < |eligible| && eligible[k] == a;
      assert added[k] == a.id;
    }
    forall x | x in added ensures x !in held && exists a :: a in Catalogue && a.kind == StreakKind && a.id == x {
      var k :| 0 <= k < |added| && added[k] == x;
      assert eligible[k] in eligible;
    }
  }

  /** The ids appended by one award are in catalogue order, each once. */
  lemma AwardAppendsInCatalogueOrder(held: seq<int>)
    ensures var added := AwardAchievements(held).achievements[|held|..];
            forall i, j :: 0 <= i < j < |added| ==> added[i] < added[j]
  {
    CatalogueIdsIncreasing();
    EligibleKeepsOrder(Catalogue, held);
    var eligible := Eligible(Catalogue, held);
    if eligible != [] {
      assert (held + Ids(eligible))[|held|..] == Ids(eligible);
    }
  }

  /** A second award right after the first adds nothing and saves nothing. */
  lemma AwardIsIdempotent(held: seq<int>)
    ensures var once := AwardAchievements(held).achievements;
            AwardAchievements(once) == Award(once, false)
  {
    var once := AwardAchievements(held).achievements;
    EligibleEmptyWhenAllHeld(Catalogue, once);
  }

  lemma {:induction false} EligibleEmptyWhenAllHeld(catalogue: seq<Achievement>, held: seq<int>)
    requires forall a :: a in catalogue && a.kind == StreakKind ==> a.id in held
    ensures Eligible(catalogue, held) == []
  {
    if catalogue != [] {
      EligibleEmptyWhenAllHeld(catalogue[1..], held);
    }
  }

  lemma {:induction false} EligibleAllWhenNoneHeld(catalogue: seq<Achievement>, held: seq<int>)
    requires forall a :: a in catalogue ==> a.kind == StreakKind && a.id !in held
    ensures Eligible(catalogue, held) == catalogue
  {
    if catalogue != [] {
      EligibleAllWhenNoneHeld(catalogue[1..], held);
      assert catalogue == [catalogue[0]] + catalogue[1..];
    }
  }

  /** Because streak length is never compared, a student's first session
      earns all four achievements at once, the 30-day streak included. */
  lemma FirstPracticeEarnsEverything()
    ensures AwardAchievements([]) == Award([1, 2, 3, 4], true)
  {
    NewcomerEligibleForAll();
    CatalogueIds();
    assert [] + Ids(Catalogue) == [1, 2, 3, 4];
  }

  lemma NewcomerEligibleForAll()
    ensures Eligible(Catalogue, []) == Catalogue
  {
    assert forall a :: a in Catalogue ==> a.kind == StreakKind;
    EligibleAllWhenNoneHeld(Catalogue, []);
  }

  lemma CatalogueIds()
    ensures Ids(Catalogue) == [1, 2, 3, 4]
  {
    var ids := Ids(Catalogue);
    assert ids[0] == 1 && ids[1] == 2 && ids[2] == 3 && ids[3] == 4;
  }

  // Field bounds of a practice item.
  const RatingMin := 0
  const RatingMax := 5
  const DurationMin := 1
  const DurationMax := 180
  const PointsMin := 0
  const PointsMax := 5
  const TagMaxLength := 50

  /** A practice session. The date and the recording file are not modelled. */
  datatype PracticeItem = PracticeItem(
    student: UserId,
    activity: string,
    notes: string,
    rating: int,
    duration: int,
    tags: seq<string>,
    teacherFeedback: string,
    pointsAwarded: int)

  /** A tag passes its `CharField(max_length=50)`: non-blank and at most 50
      characters long. */
  predicate ValidTag(t: string) {
    0 < |t| <= TagMaxLength
  }

  /** The item passes its field validators; the tag list itself may be empty,
      each tag may not. */
  predicate ValidItem(it: PracticeItem) {
    && RatingMin <= it.rating <= RatingMax
    && DurationMin <= it.duration <= DurationMax
    && PointsMin <= it.pointsAwarded <= PointsMax
    && forall t :: t in it.tags ==> ValidTag(t)
  }

  /** A new item; an omitted rating, duration, tag list or text field takes
      its declared default. */
  function NewItem(student: UserId, activity: Option<string>, notes: Option<string>,
                   rating: Option<int>, duration: Option<int>, tags: Option<seq<string>>): (it: PracticeItem)
    ensures it.student == student
    ensures it.rating == rating.GetOr(0) && it.duration == duration.GetOr(0)
    ensures it.pointsAwarded == 0 && it.teacherFeedback == ""
    ensures it.tags == tags.GetOr([])
  {
    PracticeItem(student, activity.GetOr(""), notes.GetOr(""), rating.GetOr(0),
                 duration.GetOr(0), tags.GetOr([]), "", 0)
  }

  /** The default duration of 0 is below the validator's minimum, so an item
      saved with every default fails validation. */
  lemma DefaultItemIsInvalid(student: UserId)
    ensures !ValidItem(NewItem(student, None, None, None, None, None))
  {
  }

  /** With the duration supplied in range and the rest valid, a new item
      passes validation. */
  lemma NewItemValid(student: UserId, activity: Option<string>, notes: Option<string>,
                     rating: Option<int>, duration: int, tags: Option<seq<string>>)
    requires rating.Some? ==> RatingMin <= rating.value <= RatingMax
    requires DurationMin <= duration <= DurationMax
    requires tags.Some? ==> forall t :: t in tags.value ==> ValidTag(t)
    ensures ValidItem(NewItem(student, activity, notes, rating, Some(duration), tags))
  {
  }
}

=== FILE: resource_views.dfy ===
/** The ownership rules of `journal_core/views.py`: the object permission
    class, the per-requester querysets of the list endpoints, the creation
    hooks of practice items and goals, and the argument check of the
    presigned-upload endpoint. The requester is always an authenticated
    account. */
module ResourceViews {
  import opened Common
  import opened Users
  import opened Practice
  import opened Goals
  import opened Serializers
  import AccountViews

  // ---------------------------------------------------------------------
  // IsOwnerOrReadOnly

  /** DRF's `SAFE_METHODS`. */
  predicate IsSafeMethod(verb: string) {
    verb == "GET" || verb == "HEAD" || verb == "OPTIONS"
  }

  /** `IsOwnerOrReadOnly.has_object_permission` as written: a safe method
      AND ownership. */
  function HasObjectPermission(verb: string, owner: UserId, requester: UserId): (granted: bool)
    ensures granted ==> IsSafeMethod(verb)
    ensures granted ==> owner == requester
    ensures IsSafeMethod(verb) && owner == requester ==> granted
  {
    IsSafeMethod(verb) && owner == requester
  }

  /** What the class name promises: anyone may read, the owner may also
      write. */
  function HasObjectPermissionIntended(verb: string, owner: UserId, requester: UserId): (granted: bool)
    ensures IsSafeMethod(verb) ==> granted
    ensures owner == requester ==> granted
    ensures granted ==> IsSafeMethod(verb) || owner == requester
  {
    IsSafeMethod(verb) || owner == requester
  }

  /** As written, the owner cannot update their own object and nobody else
      can read it. */
  lemma OwnerOrReadOnlyDeniesOwnerWrites()
    ensures !HasObjectPermission("PUT", 1, 1)
    ensures !HasObjectPermission("GET", 1, 2)
    ensures HasObjectPermissionIntended("PUT", 1, 1) && HasObjectPermissionIntended("GET", 1, 2)
  {
  }

  /** Whatever the class as written grants, the intended rule grants too. */
  lemma WrittenPermissionWithinIntended(verb: string, owner: UserId, requester: UserId)
    ensures HasObjectPermission(verb, owner, requester) ==> HasObjectPermissionIntended(verb, owner, requester)
  {
  }

  // ---------------------------------------------------------------------
  // get_queryset filters

  /** The rows a list endpoint returns: exactly those the requester owns. */
  function OwnRows<R>(rows: map<nat, R>, ownerOf: R -> UserId, requester: UserId): (r: map<nat, R>)
    ensures r.Keys <= rows.Keys
    ensures forall k :: k in r ==> r[k] == rows[k] && ownerOf(rows[k]) == requester
    ensures forall k :: k in rows && ownerOf(rows[k]) == requester ==> k in r
  {
    map k | k in rows && ownerOf(rows[k]) == requester :: rows[k]
  }

  /** Every row is listed for its owner and for nobody else. */
  lemma {:induction false} OwnRowsPartition<R>(rows: map<nat, R>, ownerOf: R -> UserId, k: nat, requester: UserId)
    requires k in rows
    ensures k in OwnRows(rows, ownerOf, requester) <==> ownerOf(rows[k]) == requester
  {
  }

  /** `UserViewSet.get_queryset`: the requester's own record only. */
  function UserQueryset(s: UserStore, requester: UserId): (r: UserStore)
    ensures r.Keys == s.Keys * {requester}
    ensures requester in s ==> r == map[requester := s[requester]]
  {
    map id | id in s && id == requester :: s[id]
  }

  /** The queryset is what decides a profile update for someone else's key:
      it is not found, so the ownership test after it is never reached. */
  lemma UpdateOutsideQuerysetNotFound(s: UserStore, requester: UserId, pk: UserId, req: UpdateRequest)
    requires requester in s && pk !in UserQueryset(s, requester)
    ensures AccountViews.UpdateProfile(s, requester, pk, req) == AccountViews.MailReply(StatusNotFound, s, false)
  {
  }

  /** `PracticeItemViewSet.get_queryset`: the requester's own sessions. */
  function PracticeItemQueryset(items: map<nat, PracticeItem>, requester: UserId): (r: map<nat, PracticeItem>)
    ensures forall k :: k in r <==> k in items && items[k].student == requester
    ensures forall k :: k in r ==> r[k] == items[k]
  {
    OwnRows(items, (it: PracticeItem) => it.student, requester)
  }

  /** `GoalViewSet.get_queryset`: the goals assigned to the requester. */
  function GoalQueryset(goals: map<nat, Goal>, requester: UserId): (r: map<nat, Goal>)
    ensures forall k :: k in r <==> k in goals && goals[k].assignedTo == requester
    ensures forall k :: k in r ==> r[k] == goals[k]
  {
    OwnRows(goals, (g: Goal) => g.assignedTo, requester)
  }

  // ---------------------------------------------------------------------
  // PracticeItemViewSet.perform_create

  /** Status, the items, and the accounts after a practice-item POST. */
  datatype ItemReply = ItemReply(status: int, items: map<nat, PracticeItem>, users: UserStore)

  /** Create a practice item for the requester under the fresh key `newId`,
      then award the requester's achievements. */
  function CreatePracticeItem(items: map<nat, PracticeItem>, users: UserStore, requester: UserId,
                              d: ItemInput, newId: nat): (r: ItemReply)
    requires requester in users && newId !in items
    ensures r.status in {StatusCreated, StatusBadRequest}
    ensures r.status == StatusCreated <==> ItemInputProblems(d) == {}
    ensures r.status == StatusBadRequest ==> r.items == items && r.users == users
    ensures r.status == StatusCreated ==>
              && r.items.Keys == items.Keys + {newId}
              && (forall k :: k in items ==> r.items[k] == items[k])
              && r.items[newId] == CreateItem(Some(requester), d).value
              && r.items[newId].student == requester
              && r.users.Keys == users.Keys
              && (forall id :: id in users && id != requester ==> r.users[id] == users[id])
              && r.users[requester] == users[requester].(achievements := r.users[requester].achievements)
              && r.users[requester].achievements == AwardAchievements(users[requester].achievements).achievements
              && users[requester].achievements <= r.users[requester].achievements
              && (forall a :: a in Catalogue && a.kind == StreakKind ==> a.id in r.users[requester].achievements)
  {
    if ItemInputProblems(d) != {} then ItemReply(StatusBadRequest, items, users)
    else
      var item := CreateItem(Some(requester), d).value;
      var student := users[requester];
      var held := AwardAchievements(student.achievements).achievements;
      ItemReply(StatusCreated, items[newId := item], users[requester := student.(achievements := held)])
  }

  /** A created item is listed for its creator and for nobody else. */
  lemma CreatedItemListedForCreatorOnly(items: map<nat, PracticeItem>, users: UserStore, requester: UserId,
                                        d: ItemInput, newId: nat, viewer: UserId)
    requires requester in users && newId !in items
    requires CreatePracticeItem(items, users, requester, d, newId).status == StatusCreated
    ensures newId in PracticeItemQueryset(CreatePracticeItem(items, users, requester, d, newId).items, viewer)
            <==> viewer == requester
  {
  }

  // ---------------------------------------------------------------------
  // GoalViewSet.perform_create

  /** Status and the goals after a goal POST. */
  datatype GoalReply = GoalReply(status: int, goals: map<nat, Goal>)

  /** Create a goal under the fresh key `newId`; the requester is always
      recorded as the assigner, whatever existing account the form named as
      `assigned_by`, and the assignee comes from the form. */
  function CreateGoalView(goals: map<nat, Goal>, users: UserStore, requester: UserId,
                          d: GoalInput, newId: nat, today: int): (r: GoalReply)
    requires requester in users && newId !in goals
    ensures r.status in {StatusCreated, StatusBadRequest}
    ensures r.status == StatusCreated <==> GoalInputProblems(users, d) == {}
    ensures r.status == StatusBadRequest ==> r.goals == goals
    ensures d.assignedBy.Some? && d.assignedBy.value !in users ==> r.status == StatusBadRequest
    ensures r.status == StatusCreated ==>
              && r.goals.Keys == goals.Keys + {newId}
              && (forall k :: k in goals ==> r.goals[k] == goals[k])
              && r.goals[newId] == CreateGoal(Some(requester), d, today).value
              && r.goals[newId].assignedBy == Some(requester)
              && r.goals[newId].assignedTo in users
              && ValidGoal(r.goals[newId])
  {
    if GoalInputProblems(users, d) != {} then GoalReply(StatusBadRequest, goals)
    else
      AcceptedGoalIsValid(users, d, requester, today);
      match CreateGoal(Some(requester), d, today)
      case Err(_) => GoalReply(StatusBadRequest, goals)
      case Ok(goal) => GoalReply(StatusCreated, goals[newId := goal])
  }

  /** A goal a teacher sets for a student shows in the student's list, not in
      the teacher's. */
  lemma AssignedGoalListedForAssignee(goals: map<nat, Goal>, users: UserStore, teacher: UserId,
                                      d: GoalInput, newId: nat, today: int)
    requires teacher in users && newId !in goals
    requires CreateGoalView(goals, users, teacher, d, newId, today).status == StatusCreated
    requires d.assignedTo != Some(teacher)
    ensures var after := CreateGoalView(goals, users, teacher, d, newId, today).goals;
            newId in GoalQueryset(after, d.assignedTo.value) && newId !in GoalQueryset(after, teacher)
  {
  }

  // ---------------------------------------------------------------------
  // create_presigned_upload

  /** The reply: 400 for a missing argument, otherwise the URL and key. */
  datatype UploadReply = MissingArguments | UploadTicket(url: string, key: string)

  /** `create_presigned_upload`; `presign` stands for the object-storage call. */
  function CreatePresignedUpload(fileName: Option<string>, contentType: Option<string>, requester: UserId,
                                 presign: (string, string, UserId) -> (string, string)): (r: UploadReply)
    ensures r.MissingArguments? <==> !Truthy(fileName) || !Truthy(contentType)
    ensures r.UploadTicket? ==> (r.url, r.key) == presign(fileName.value, contentType.value, requester)
  {
    if !Truthy(fileName) || !Truthy(contentType) then MissingArguments
    else
      var (url, key) := presign(fileName.value, contentType.value, requester);
      UploadTicket(url, key)
  }
}

=== FILE: serializers.dfy ===
/** The validation and write rules of `serializers.py`: registration, profile
    update with its password-change checks, the achievement listing, and the
    context checks of practice-item and goal creation. A serializer collects
    field-level problems first and runs its object-level `validate` only when
    there are none. */
module Serializers {
  import opened Common
  import opened Users
  import opened Practice
  import opened Goals

  const MinPasswordLength := 8

  /** Where a validation problem is reported; `NonField` is DRF's
      `non_field_errors`. */
  datatype Field =
    | NonField | Username | Email | Password | PasswordConfirm | FirstName | LastName
    | CurrentPassword | NewPassword | NewPasswordConfirm
    | Rating | Duration | Tags
    | Category | Title | Description | TargetCount | EndDate | AssignedTo | AssignedBy

  datatype Problem =
    | Required(field: Field)
    | TooShort(field: Field)
    | TooLong(field: Field)
    | OutOfRange(field: Field)
    | InvalidChoice(field: Field)
    | Taken(field: Field)
    | Incorrect(field: Field)
    | Mismatch(field: Field)
    | UnknownUser(field: Field)
    | MissingStudent
    | MissingAssigner

  // ---------------------------------------------------------------------
  // UserSerializer.get_full_achievements

  /** The catalogue entries whose id is held, in catalogue order. */
  function HeldEntries(catalogue: seq<Achievement>, held: seq<int>): (r: seq<Achievement>)
    ensures forall a :: a in r <==> a in catalogue && a.id in held
    ensures |r| <= |catalogue|
  {
    if catalogue == [] then []
    else (if catalogue[0].id in held then [catalogue[0]] else []) + HeldEntries(catalogue[1..], held)
  }

  lemma {:induction false} HeldEntriesKeepOrder(catalogue: seq<Achievement>, held: seq<int>)
    requires IdsIncreasing(catalogue)
    ensures IdsIncreasing(HeldEntries(catalogue, held))
  {
    if catalogue != [] {
      var rest := HeldEntries(catalogue[1..], held);
      HeldEntriesKeepOrder(catalogue[1..], held);
      forall a | a in rest ensures catalogue[0].id < a.id {
        var k :| 0 <= k < |catalogue[1..]| && catalogue[1..][k] == a;
        assert catalogue[k + 1] == a;
      }
    }
  }

  lemma {:induction false} HeldEntriesAll(catalogue: seq<Achievement>, held: seq<int>)
    requires forall a :: a in catalogue ==> a.id in held
    ensures HeldEntries(catalogue, held) == catalogue
  {
    if catalogue != [] {
      HeldEntriesAll(catalogue[1..], held);
      assert catalogue == [catalogue[0]] + catalogue[1..];
    }
  }

  /** `get_full_achievements`: the catalogue entries the account holds, in
      catalogue order and each at most once, however the held list is ordered
      or repeated. */
  function FullAchievements(held: seq<int>): (r: seq<Achievement>)
    ensures forall a :: a in r <==> a in Catalogue && a.id in held
    ensures IdsIncreasing(r)
  {
    CatalogueIdsIncreasing();
    HeldEntriesKeepOrder(Catalogue, held);
    HeldEntries(Catalogue, held)
  }

  /** After one award every catalogue entry is listed. */
  lemma AwardedListsWholeCatalogue(held: seq<int>)
    ensures FullAchievements(AwardAchievements(held).achievements) == Catalogue
  {
    HeldEntriesAll(Catalogue, AwardAchievements(held).achievements);
  }

  // ---------------------------------------------------------------------
  // UserRegistrationSerializer

  /** The registration form. Omitted keys are `None`. */
  datatype RegistrationRequest = RegistrationRequest(
    username: Option<string>,
    email: Option<string>,
    password: Option<string>,
    passwordConfirm: Option<string>,
    firstName: Option<string>,
    lastName: Option<string>,
    isTeacher: Option<bool>)

  /** An omitted value, or one that fits a column of `maxLength` characters. */
  predicate FitsColumn(value: Option<string>, maxLength: nat) {
    value.Some? ==> |value.value| <= maxLength
  }

  /** A supplied value longer than its column. */
  function ColumnProblems(value: Option<string>, maxLength: nat, f: Field): (ps: set<Problem>)
    ensures ps <= {TooLong(f)}
    ensures ps == {} <==> FitsColumn(value, maxLength)
  {
    if value.Some? && |value.value| > maxLength then {TooLong(f)} else {}
  }

  /** The registration's username: required, within its column and unused;
      the column's length and uniqueness validators both run. */
  function RegisteredUsernameProblems(s: UserStore, username: Option<string>): (ps: set<Problem>)
    ensures ps <= {Required(Username), TooLong(Username), Taken(Username)}
    ensures ps == {} <==>
              Truthy(username) && FitsColumn(username, UsernameMaxLength) && UsernameUnused(s, username.value)
    ensures Taken(Username) in ps <==> Truthy(username) && !UsernameUnused(s, username.value)
  {
    if !Truthy(username) then {Required(Username)}
    else (if |username.value| > UsernameMaxLength then {TooLong(Username)} else {})
         + (if WithUsername(s, username.value) != {} then {Taken(Username)} else {})
  }

  /** The registration's email: optional; when supplied, within its column
      and, only then, unused (`validate_email` runs after the column check
      passes). */
  function RegisteredEmailProblems(s: UserStore, email: Option<string>): (ps: set<Problem>)
    ensures ps <= {TooLong(Email), Taken(Email)}
    ensures ps == {} <==> FitsColumn(email, EmailMaxLength) && (email.Some? ==> EmailUnused(s, email.value))
    ensures Taken(Email) in ps <==>
              email.Some? && FitsColumn(email, EmailMaxLength) && !EmailUnused(s, email.value)
  {
    if email.None? then {}
    else if |email.value| > EmailMaxLength then {TooLong(Email)}
    else if WithEmail(s, email.value) != {} then {Taken(Email)}
    else {}
  }

  /** The registration's passwords: the password required and at least eight
      characters, the confirmation required. */
  function RegisteredPasswordProblems(req: RegistrationRequest): (ps: set<Problem>)
    ensures ps <= {Required(Password), TooShort(Password), Required(PasswordConfirm)}
    ensures ps == {} <==>
              Truthy(req.password) && |req.password.value| >= MinPasswordLength && Truthy(req.passwordConfirm)
    ensures TooShort(Password) in ps <==> Truthy(req.password) && |req.password.value| < MinPasswordLength
  {
    (if !Truthy(req.password) then {Required(Password)}
     else if |req.password.value| < MinPasswordLength then {TooShort(Password)}
     else {})
    + (if !Truthy(req.passwordConfirm) then {Required(PasswordConfirm)} else {})
  }

  /** Field-level checks of a registration: username, email, both names
      within their columns, and the passwords. */
  function RegistrationFieldProblems(s: UserStore, req: RegistrationRequest): (ps: set<Problem>)
    ensures ps == {} <==>
              && Truthy(req.username) && FitsColumn(req.username, UsernameMaxLength)
              && UsernameUnused(s, req.username.value)
              && FitsColumn(req.email, EmailMaxLength) && (req.email.Some? ==> EmailUnused(s, req.email.value))
              && FitsColumn(req.firstName, NameMaxLength) && FitsColumn(req.lastName, NameMaxLength)
              && Truthy(req.password) && |req.password.value| >= MinPasswordLength && Truthy(req.passwordConfirm)
    ensures Taken(Username) in ps <==> Truthy(req.username) && !UsernameUnused(s, req.username.value)
    ensures Taken(Email) in ps <==>
              req.email.Some? && FitsColumn(req.email, EmailMaxLength) && !EmailUnused(s, req.email.value)
    ensures TooShort(Password) in ps <==> Truthy(req.password) && |req.password.value| < MinPasswordLength
  {
    var username := RegisteredUsernameProblems(s, req.username);
    var email := RegisteredEmailProblems(s, req.email);
    var names := ColumnProblems(req.firstName, NameMaxLength, FirstName)
                 + ColumnProblems(req.lastName, NameMaxLength, LastName);
    var passwords := RegisteredPasswordProblems(req);
    UnionEmpty(username, email);
    UnionEmpty(username + email, names);
    UnionEmpty(username + email + names, passwords);
    username + email + names + passwords
  }

  lemma UnionEmpty(a: set<Problem>, b: set<Problem>)
    ensures a + b == {} <==> a == {} && b == {}
  {
    if a + b == {} {
      assert forall p :: p in a ==> p in a + b;
    }
  }

  /** All problems `is_valid` reports for a registration: the field-level
      ones, or, when there are none, a password mismatch. */
  function RegistrationProblems(s: UserStore, req: RegistrationRequest): (ps: set<Problem>)
    ensures ps == {} <==>
              && Truthy(req.username) && FitsColumn(req.username, UsernameMaxLength)
              && UsernameUnused(s, req.username.value)
              && FitsColumn(req.email, EmailMaxLength) && (req.email.Some? ==> EmailUnused(s, req.email.value))
              && FitsColumn(req.firstName, NameMaxLength) && FitsColumn(req.lastName, NameMaxLength)
              && Truthy(req.password) && |req.password.value| >= MinPasswordLength
              && req.passwordConfirm == req.password
    ensures Taken(Username) in ps <==> Truthy(req.username) && !UsernameUnused(s, req.username.value)
    ensures Taken(Email) in ps <==>
              req.email.Some? && FitsColumn(req.email, EmailMaxLength) && !EmailUnused(s, req.email.value)
    ensures TooShort(Password) in ps <==> Truthy(req.password) && |req.password.value| < MinPasswordLength
    ensures Mismatch(NonField) in ps ==> ps == {Mismatch(NonField)} && req.password != req.passwordConfirm
  {
    var fieldProblems := RegistrationFieldProblems(s, req);
    if fieldProblems != {} then fieldProblems
    else if req.password.value != req.passwordConfirm.value then {Mismatch(NonField)}
    else {}
  }

  /** `UserRegistrationSerializer.create`: drops the confirmation and calls
      `create_user` with the rest; omitted optional fields take their
      defaults, an omitted email becomes the empty string, and the address
      is stored as `normalize_email` leaves it. */
  function RegisteredUser(req: RegistrationRequest): (u: User)
    requires req.username.Some? && req.password.Some?
    ensures u.username == req.username.value && u.email == NormalizeEmail(req.email.GetOr(""))
    ensures CheckPassword(u, req.password.value)
    ensures u.isTeacher == req.isTeacher.GetOr(false)
    ensures FitsColumns(u) <==>
              && FitsColumn(req.username, UsernameMaxLength) && |u.email| <= EmailMaxLength
              && FitsColumn(req.firstName, NameMaxLength) && FitsColumn(req.lastName, NameMaxLength)
    ensures !u.emailConfirmed && u.subscriptionId == None
  {
    CreateUser(req.username.value, req.email.GetOr(""), req.password.value,
               req.firstName.GetOr(""), req.lastName.GetOr(""), req.isTeacher)
  }

  /** A registration that leaves `is_teacher` out makes a student, one that
      sets it makes a teacher, and either way the account starts with no
      points, the default timezone and no subscription. */
  lemma RegistrationRoleDefaultsToStudent(req: RegistrationRequest)
    requires req.username.Some? && req.password.Some?
    ensures req.isTeacher == None ==> !RegisteredUser(req).isTeacher
    ensures req.isTeacher == Some(true) ==> RegisteredUser(req).isTeacher
    ensures var u := RegisteredUser(req);
            u.points == 0 && u.timezone == DefaultTimezone && u.subscriptionId == None
  {
  }

  // ---------------------------------------------------------------------
  // UserUpdateSerializer

  /** The profile-update form. Omitted keys are `None`. */
  datatype UpdateRequest = UpdateRequest(
    username: Option<string>,
    email: Option<string>,
    firstName: Option<string>,
    lastName: Option<string>,
    isTeacher: Option<bool>,
    currentPassword: Option<string>,
    newPassword: Option<string>,
    newPasswordConfirm: Option<string>,
    dailyTarget: Option<int>)

  /** A supplied username of an update of account `id`: non-blank, within its
      column, and not another account's (the model field is unique); the
      length and uniqueness validators both run. */
  function UpdatedUsernameProblems(s: UserStore, id: UserId, username: Option<string>): (ps: set<Problem>)
    ensures ps <= {Required(Username), TooLong(Username), Taken(Username)}
    ensures ps == {} <==>
              username != Some("") && FitsColumn(username, UsernameMaxLength)
              && (username.Some? ==> UsernameUnusedByOthers(s, id, username.value))
    ensures Taken(Username) in ps <==> Truthy(username) && !UsernameUnusedByOthers(s, id, username.value)
  {
    if username.None? then {}
    else if username.value == "" then {Required(Username)}
    else (if |username.value| > UsernameMaxLength then {TooLong(Username)} else {})
         + (if !UsernameUnusedByOthers(s, id, username.value) then {Taken(Username)} else {})
  }

  /** A password field that may be omitted but not blank. */
  function BlankProblems(value: Option<string>, f: Field): (ps: set<Problem>)
    ensures ps <= {Required(f)}
    ensures ps == {} <==> value != Some("")
    ensures Required(f) in ps <==> value == Some("")
  {
    if value == Some("") then {Required(f)} else {}
  }

  /** A supplied new password: not blank, and at least eight characters. */
  function NewPasswordProblems(value: Option<string>): (ps: set<Problem>)
    ensures ps <= {Required(NewPassword), TooShort(NewPassword)}
    ensures ps == {} <==> (value.Some? ==> |value.value| >= MinPasswordLength)
    ensures TooShort(NewPassword) in ps <==> Truthy(value) && |value.value| < MinPasswordLength
  {
    if value == Some("") then {Required(NewPassword)}
    else if value.Some? && |value.value| < MinPasswordLength then {TooShort(NewPassword)}
    else {}
  }

  /** The account fields of an update of account `id`: a supplied username
      is non-blank, within its column and not another account's; a supplied
      email and names fit their columns. Nothing checks whether a supplied
      email is in use. */
  function UpdatedAccountProblems(s: UserStore, id: UserId, req: UpdateRequest): (ps: set<Problem>)
    ensures ps <= {Required(Username), TooLong(Username), Taken(Username),
                   TooLong(Email), TooLong(FirstName), TooLong(LastName)}
    ensures ps == {} <==>
              && req.username != Some("") && FitsColumn(req.username, UsernameMaxLength)
              && (req.username.Some? ==> UsernameUnusedByOthers(s, id, req.username.value))
              && FitsColumn(req.email, EmailMaxLength)
              && FitsColumn(req.firstName, NameMaxLength) && FitsColumn(req.lastName, NameMaxLength)
    ensures Taken(Username) in ps <==> Truthy(req.username) && !UsernameUnusedByOthers(s, id, req.username.value)
    ensures Taken(Email) !in ps
  {
    var username := UpdatedUsernameProblems(s, id, req.username);
    var email := ColumnProblems(req.email, EmailMaxLength, Email);
    var names := ColumnProblems(req.firstName, NameMaxLength, FirstName)
                 + ColumnProblems(req.lastName, NameMaxLength, LastName);
    UnionEmpty(username, email);
    UnionEmpty(username + email, names);
    username + email + names
  }

  /** The password fields of an update: each may be omitted but not blank,
      and a new password has at least eight characters. */
  function UpdatedPasswordProblems(req: UpdateRequest): (ps: set<Problem>)
    ensures ps <= {Required(CurrentPassword), Required(NewPassword), TooShort(NewPassword),
                   Required(NewPasswordConfirm)}
    ensures ps == {} <==>
              && req.currentPassword != Some("")
              && (req.newPassword.Some? ==> |req.newPassword.value| >= MinPasswordLength)
              && req.newPasswordConfirm != Some("")
    ensures TooShort(NewPassword) in ps <==> Truthy(req.newPassword) && |req.newPassword.value| < MinPasswordLength
    ensures Required(CurrentPassword) in ps <==> req.currentPassword == Some("")
    ensures Required(NewPasswordConfirm) in ps <==> req.newPasswordConfirm == Some("")
  {
    var current := BlankProblems(req.currentPassword, CurrentPassword);
    var chosen := NewPasswordProblems(req.newPassword);
    var confirm := BlankProblems(req.newPasswordConfirm, NewPasswordConfirm);
    UnionEmpty(current, chosen);
    UnionEmpty(current + chosen, confirm);
    current + chosen + confirm
  }

  /** All field-level checks of an update of account `id`. */
  function UpdateFieldProblems(s: UserStore, id: UserId, req: UpdateRequest): (ps: set<Problem>)
    ensures ps == {} <==>
              && req.username != Some("") && FitsColumn(req.username, UsernameMaxLength)
              && (req.username.Some? ==> UsernameUnusedByOthers(s, id, req.username.value))
              && FitsColumn(req.email, EmailMaxLength)
              && FitsColumn(req.firstName, NameMaxLength) && FitsColumn(req.lastName, NameMaxLength)
              && req.currentPassword != Some("")
              && (req.newPassword.Some? ==> |req.newPassword.value| >= MinPasswordLength)
              && req.newPasswordConfirm != Some("")
    ensures Taken(Username) in ps <==> Truthy(req.username) && !UsernameUnusedByOthers(s, id, req.username.value)
    ensures TooShort(NewPassword) in ps <==> Truthy(req.newPassword) && |req.newPassword.value| < MinPasswordLength
    ensures Required(CurrentPassword) in ps <==> req.currentPassword == Some("")
    ensures Required(NewPasswordConfirm) in ps <==> req.newPasswordConfirm == Some("")
    ensures Taken(Email) !in ps
  {
    var account := UpdatedAccountProblems(s, id, req);
    var passwords := UpdatedPasswordProblems(req);
    assert Taken(Username) !in passwords && TooShort(NewPassword) !in account;
    assert Required(CurrentPassword) !in account && Required(NewPasswordConfirm) !in account;
    assert Taken(Email) !in passwords;
    UnionEmpty(account, passwords);
    account + passwords
  }

  /** The request asks for a password change: `new_password or new_password_confirm`. */
  predicate ChangesPassword(req: UpdateRequest) {
    Truthy(req.newPassword) || Truthy(req.newPasswordConfirm)
  }

  /** `UserUpdateSerializer.validate`: the first failing check of a password
      change, in the order current password missing, current password wrong,
      new password missing, confirmation different. */
  function PasswordChangeProblem(u: User, req: UpdateRequest): (p: Option<Problem>)
    ensures !ChangesPassword(req) ==> p == None
    ensures p == Some(Required(CurrentPassword)) <==> ChangesPassword(req) && !Truthy(req.currentPassword)
    ensures p == Some(Incorrect(CurrentPassword)) <==>
              ChangesPassword(req) && Truthy(req.currentPassword) && !CheckPassword(u, req.currentPassword.value)
    ensures p == Some(Required(NewPassword)) <==>
              ChangesPassword(req) && Truthy(req.currentPassword) && CheckPassword(u, req.currentPassword.value)
              && !Truthy(req.newPassword)
    ensures p == Some(Mismatch(NewPasswordConfirm)) <==>
              ChangesPassword(req) && Truthy(req.currentPassword) && CheckPassword(u, req.currentPassword.value)
              && Truthy(req.newPassword) && req.newPasswordConfirm != req.newPassword
    ensures p == None && ChangesPassword(req) ==>
              CheckPassword(u, req.currentPassword.value) && Truthy(req.newPassword)
              && req.newPasswordConfirm == req.newPassword
  {
    if !ChangesPassword(req) then None
    else if !Truthy(req.currentPassword) then Some(Required(CurrentPassword))
    else if !CheckPassword(u, req.currentPassword.value) then Some(Incorrect(CurrentPassword))
    else if !Truthy(req.newPassword) then Some(Required(NewPassword))
    else if req.newPassword != req.newPasswordConfirm then Some(Mismatch(NewPasswordConfirm))
    else None
  }

  /** `UserUpdateSerializer.update`: sets the password when a non-empty new
      one was given, writes every other supplied field, and keeps the rest. */
  function ApplyUpdate(u: User, req: UpdateRequest): (r: User)
    ensures Truthy(req.newPassword) ==> CheckPassword(r, req.newPassword.value)
    ensures !Truthy(req.newPassword) ==> r.password == u.password
    ensures r.username == req.username.GetOr(u.username)
    ensures r.email == req.email.GetOr(u.email)
    ensures r.firstName == req.firstName.GetOr(u.firstName)
    ensures r.lastName == req.lastName.GetOr(u.lastName)
    ensures r.isTeacher == req.isTeacher.GetOr(u.isTeacher)
    ensures r.dailyTarget == req.dailyTarget.GetOr(u.dailyTarget)
    ensures r.(username := u.username, email := u.email, password := u.password,
               firstName := u.firstName, lastName := u.lastName, isTeacher := u.isTeacher,
               dailyTarget := u.dailyTarget) == u
  {
    var withPassword := if Truthy(req.newPassword) then u.(password := req.newPassword.value) else u;
    withPassword.(
      username := req.username.GetOr(u.username),
      email := req.email.GetOr(u.email),
      firstName := req.firstName.GetOr(u.firstName),
      lastName := req.lastName.GetOr(u.lastName),
      isTeacher := req.isTeacher.GetOr(u.isTeacher),
      dailyTarget := req.dailyTarget.GetOr(u.dailyTarget))
  }

  /** An update that supplies nothing leaves the record as it was. */
  lemma EmptyUpdateIsIdentity(u: User)
    ensures ApplyUpdate(u, UpdateRequest(None, None, None, None, None, None, None, None, None)) == u
  {
  }

  /** Applying the same accepted update twice is the same as applying it once. */
  lemma ApplyUpdateIdempotent(u: User, req: UpdateRequest)
    ensures ApplyUpdate(ApplyUpdate(u, req), req) == ApplyUpdate(u, req)
  {
  }

  // ---------------------------------------------------------------------
  // PracticeItemSerializer

  /** The practice-item form. Omitted keys are `None`. */
  datatype ItemInput = ItemInput(
    activity: Option<string>,
    notes: Option<string>,
    rating: Option<int>,
    duration: Option<int>,
    tags: Option<seq<string>>)

  /** The model validators the serializer runs on supplied values; each tag
      goes through the list's child `CharField`, which refuses a blank tag. */
  function ItemInputProblems(d: ItemInput): (ps: set<Problem>)
    ensures ps == {} <==>
              && (d.rating.Some? ==> RatingMin <= d.rating.value <= RatingMax)
              && (d.duration.Some? ==> DurationMin <= d.duration.value <= DurationMax)
              && (d.tags.Some? ==> forall t :: t in d.tags.value ==> ValidTag(t))
    ensures Required(Tags) in ps <==> d.tags.Some? && "" in d.tags.value
  {
    (if d.rating.Some? && !(RatingMin <= d.rating.value <= RatingMax) then {OutOfRange(Rating)} else {})
    + (if d.duration.Some? && !(DurationMin <= d.duration.value <= DurationMax) then {OutOfRange(Duration)} else {})
    + (if d.tags.Some? && "" in d.tags.value then {Required(Tags)} else {})
    + (if d.tags.Some? && exists t :: t in d.tags.value && |t| > TagMaxLength then {TooLong(Tags)} else {})
  }

  /** `PracticeItemSerializer.create`: refused without a student in the
      context; otherwise the item belongs to that student. */
  function CreateItem(student: Option<UserId>, d: ItemInput): (r: Result<PracticeItem, Problem>)
    ensures r.Err? <==> student.None?
    ensures r.Err? ==> r.error == MissingStudent
    ensures r.Ok? ==> r.value.student == student.value && r.value.pointsAwarded == 0
    ensures r.Ok? ==> r.value.rating == d.rating.GetOr(0) && r.value.duration == d.duration.GetOr(0)
    ensures r.Ok? ==> r.value == NewItem(student.value, d.activity, d.notes, d.rating, d.duration, d.tags)
  {
    match student
    case None => Err(MissingStudent)
    case Some(id) => Ok(NewItem(id, d.activity, d.notes, d.rating, d.duration, d.tags))
  }

  /** An accepted form gives a valid item exactly when it supplies the
      duration: the default of 0 escapes validation. */
  lemma CreatedItemValidIffDurationGiven(student: UserId, d: ItemInput)
    requires ItemInputProblems(d) == {}
    ensures ValidItem(CreateItem(Some(student), d).value) <==> d.duration.Some?
  {
  }

  // ---------------------------------------------------------------------
  // GoalSerializer

  /** The goal form. Omitted keys are `None`; so is a null `assigned_by`,
      the one nullable field. `assigned_by` is a
      writable field of the form: it is validated like `assigned_to`, but the
      view's `save` overrides whatever value it had. */
  datatype GoalInput = GoalInput(
    category: Option<string>,
    title: Option<string>,
    description: Option<string>,
    targetCount: Option<int>,
    endDate: Option<int>,
    assignedTo: Option<UserId>,
    assignedBy: Option<UserId>)

  /** The checks on the goal's own fields: a declared category, a non-blank
      title and description within their lengths, a target in the column's
      range, and an end date. */
  function GoalContentProblems(d: GoalInput): (ps: set<Problem>)
    ensures ps <= {InvalidChoice(Category), Required(Title), TooLong(Title), Required(Description),
                   TooLong(Description), Required(TargetCount), OutOfRange(TargetCount), Required(EndDate)}
    ensures ps == {} <==>
              && (d.category.Some? ==> ValidCategory(d.category.value))
              && Truthy(d.title) && |d.title.value| <= TitleMaxLength
              && Truthy(d.description) && |d.description.value| <= DescriptionMaxLength
              && d.targetCount.Some? && 0 <= d.targetCount.value <= PositiveIntegerMax
              && d.endDate.Some?
  {
    (if d.category.Some? && !ValidCategory(d.category.value) then {InvalidChoice(Category)} else {})
    + (if !Truthy(d.title) then {Required(Title)}
       else if |d.title.value| > TitleMaxLength then {TooLong(Title)} else {})
    + (if !Truthy(d.description) then {Required(Description)}
       else if |d.description.value| > DescriptionMaxLength then {TooLong(Description)} else {})
    + (if d.targetCount.None? then {Required(TargetCount)}
       else if !(0 <= d.targetCount.value <= PositiveIntegerMax) then {OutOfRange(TargetCount)} else {})
    + (if d.endDate.None? then {Required(EndDate)} else {})
  }

  /** The checks on the two account references: `assigned_to` required and
      existing, a supplied `assigned_by` existing. */
  function GoalAccountProblems(s: UserStore, d: GoalInput): (ps: set<Problem>)
    ensures ps <= {Required(AssignedTo), UnknownUser(AssignedTo), UnknownUser(AssignedBy)}
    ensures ps == {} <==>
              d.assignedTo.Some? && d.assignedTo.value in s && (d.assignedBy.Some? ==> d.assignedBy.value in s)
    ensures UnknownUser(AssignedBy) in ps <==> d.assignedBy.Some? && d.assignedBy.value !in s
  {
    (if d.assignedTo.None? then {Required(AssignedTo)}
     else if d.assignedTo.value !in s then {UnknownUser(AssignedTo)} else {})
    + (if d.assignedBy.Some? && d.assignedBy.value !in s then {UnknownUser(AssignedBy)} else {})
  }

  /** The checks the serializer derives from the model fields. */
  function GoalInputProblems(s: UserStore, d: GoalInput): (ps: set<Problem>)
    ensures ps == {} <==>
              && (d.category.Some? ==> ValidCategory(d.category.value))
              && Truthy(d.title) && |d.title.value| <= TitleMaxLength
              && Truthy(d.description) && |d.description.value| <= DescriptionMaxLength
              && d.targetCount.Some? && 0 <= d.targetCount.value <= PositiveIntegerMax
              && d.endDate.Some?
              && d.assignedTo.Some? && d.assignedTo.value in s
              && (d.assignedBy.Some? ==> d.assignedBy.value in s)
    ensures UnknownUser(AssignedBy) in ps <==> d.assignedBy.Some? && d.assignedBy.value !in s
  {
    var content := GoalContentProblems(d);
    var accounts := GoalAccountProblems(s, d);
    UnionEmpty(content, accounts);
    content + accounts
  }

  /** `GoalSerializer.create` on validated data: refused without an assigner
      in the context; otherwise the assigner is the context's. */
  function CreateGoal(assignedBy: Option<UserId>, d: GoalInput, today: int): (r: Result<Goal, Problem>)
    requires d.title.Some? && d.description.Some? && d.targetCount.Some? && d.endDate.Some? && d.assignedTo.Some?
    ensures r.Err? <==> assignedBy.None?
    ensures r.Err? ==> r.error == MissingAssigner
    ensures r.Ok? ==> r.value.assignedBy == assignedBy && r.value.assignedTo == d.assignedTo.value
    ensures r.Ok? ==> r.value.category == d.category.GetOr(Streak) && r.value.title == d.title.value
    ensures r.Ok? ==> r.value == NewGoal(d.assignedTo.value, d.title.value, d.description.value,
                                         d.targetCount.value, d.endDate.value, today, d.category, assignedBy)
  {
    match assignedBy
    case None => Err(MissingAssigner)
    case Some(_) =>
      Ok(NewGoal(d.assignedTo.value, d.title.value, d.description.value, d.targetCount.value,
                 d.endDate.value, today, d.category, assignedBy))
  }

  /** A form the serializer accepts yields a goal `full_clean` accepts. */
  lemma AcceptedGoalIsValid(s: UserStore, d: GoalInput, assigner: UserId, today: int)
    requires GoalInputProblems(s, d) == {}
    ensures ValidGoal(CreateGoal(Some(assigner), d, today).value)
  {
  }
}

=== FILE: text.dfy ===
/** Python's `str.strip()` with no argument: remove leading and trailing
    whitespace, where whitespace is what `str.isspace` accepts. */
module Text {

  /** The characters Python's `str.isspace` accepts: the ASCII controls
      TAB..CR and FS..US, SPACE, NEL, NO-BREAK SPACE and the Unicode
      separators. */
  predicate IsSpace(c: char) {
    || c == ' '
    || ('\t' <= c <= '\r')
    || ('\U{1c}' <= c <= '\U{1f}')
    || c == '\U{85}'
    || c == '\U{a0}'
    || c == '\U{1680}'
    || ('\U{2000}' <= c <= '\U{200a}')
    || c == '\U{2028}'
    || c == '\U{2029}'
    || c == '\U{202f}'
    || c == '\U{205f}'
    || c == '\U{3000}'
  }

  /** Every character of `s` is whitespace (true of the empty string). */
  predicate AllSpace(s: string) {
    forall i :: 0 <= i < |s| ==> IsSpace(s[i])
  }

  /** `s.lstrip()`: the suffix of `s` left after dropping leading whitespace. */
  function LStrip(s: string): (r: string)
    ensures |r| <= |s| && r == s[|s| - |r|..]
    ensures AllSpace(s[..|s| - |r|])
    ensures r == [] || !IsSpace(r[0])
  {
    if s != [] && IsSpace(s[0]) then
      var r := LStrip(s[1..]);
      LStripStep(s, r);
      r
    else s
  }

  /** Putting a whitespace character back in front of `s[1..]` keeps `r` a
      suffix with only whitespace before it. */
  lemma LStripStep(s: string, r: string)
    requires s != [] && IsSpace(s[0]) && |r| < |s|
    requires r == s[1..][|s| - 1 - |r|..] && AllSpace(s[1..][..|s| - 1 - |r|])
    ensures r == s[|s| - |r|..] && AllSpace(s[..|s| - |r|])
  {
    assert s[1..][|s| - 1 - |r|..] == s[|s| - |r|..];
    var p, q := s[..|s| - |r|], s[1..][..|s| - 1 - |r|];
    forall i | 0 <= i < |p| ensures IsSpace(p[i]) {
      if i > 0 {
        assert p[i] == q[i - 1];
      }
    }
  }

  /** `s.rstrip()`: the prefix of `s` left after dropping trailing whitespace. */
  function RStrip(s: string): (r: string)
    ensures |r| <= |s| && r == s[..|r|]
    ensures AllSpace(s[|r|..])
    ensures r == [] || !IsSpace(r[|r| - 1])
  {
    if s != [] && IsSpace(s[|s| - 1]) then
      var r := RStrip(s[..|s| - 1]);
      RStripStep(s, r);
      r
    else s
  }

  /** Putting a whitespace character back after `s[..|s| - 1]` keeps `r` a
      prefix with only whitespace after it. */
  lemma RStripStep(s: string, r: string)
    requires s != [] && IsSpace(s[|s| - 1]) && |r| < |s|
    requires r == s[..|s| - 1][..|r|] && AllSpace(s[..|s| - 1][|r|..])
    ensures r == s[..|r|] && AllSpace(s[|r|..])
  {
    var p, q := s[|r|..], s[..|s| - 1][|r|..];
    forall i | 0 <= i < |p| ensures IsSpace(p[i]) {
      if i < |q| {
        assert p[i] == q[i];
      }
    }
  }

  /** `s.strip()`: a contiguous slice of `s`, with only whitespace cut off on
      either side, that neither starts nor ends with whitespace. */
  function Strip(s: string): (r: string)
    ensures exists i, j :: 0 <= i <= j <= |s| && r == s[i..j]
                           && AllSpace(s[..i]) && AllSpace(s[j..])
    ensures r == [] || (!IsSpace(r[0]) && !IsSpace(r[|r| - 1]))
  {
    var l := LStrip(s);
    var r := RStrip(l);
    var i := |s| - |l|;
    SliceOfSuffix(s, i, |r|);
    r
  }

  lemma SliceOfSuffix(s: string, i: nat, n: nat)
    requires i + n <= |s|
    ensures s[i..][..n] == s[i..i + n]
    ensures s[i..][n..] == s[i + n..]
  {
  }

  /** A character of the strip is a character of `s`. */
  lemma StripKeeps(s: string, c: char)
    requires c in Strip(s)
    ensures c in s
  {
    var l := LStrip(s);
    var r := RStrip(l);
    var n :| 0 <= n < |r| && r[n] == c;
    assert l[n] == c;
    assert s[|s| - |l| + n] == c;
  }

  /** A character that is not whitespace survives `lstrip`. */
  lemma {:induction false} LStripKeepsVisible(s: string, c: char)
    requires c in s && !IsSpace(c)
    ensures c in LStrip(s)
  {
    if s != [] && IsSpace(s[0]) {
      assert s == [s[0]] + s[1..];
      LStripKeepsVisible(s[1..], c);
    }
  }

  /** A character that is not whitespace survives `rstrip`. */
  lemma {:induction false} RStripKeepsVisible(s: string, c: char)
    requires c in s && !IsSpace(c)
    ensures c in RStrip(s)
  {
    if s != [] && IsSpace(s[|s| - 1]) {
      assert s == s[..|s| - 1] + [s[|s| - 1]];
      RStripKeepsVisible(s[..|s| - 1], c);
    }
  }

  /** A character that is not whitespace survives the strip. */
  lemma StripKeepsVisible(s: string, c: char)
    requires c in s && !IsSpace(c)
    ensures c in Strip(s)
  {
    LStripKeepsVisible(s, c);
    RStripKeepsVisible(LStrip(s), c);
  }

  /** Leading whitespace is dropped by the strip. */
  lemma StripDropsFirst(s: string)
    requires s != [] && IsSpace(s[0])
    ensures Strip(s) == Strip(s[1..])
  {
  }

  /** Trailing whitespace after a visible first character is dropped by the
      strip. */
  lemma StripDropsLast(s: string)
    requires s != [] && !IsSpace(s[0]) && IsSpace(s[|s| - 1])
    ensures Strip(s) == Strip(s[..|s| - 1])
  {
    var p := s[..|s| - 1];
    assert LStrip(s) == s;
    assert p == [] || LStrip(p) == p;
  }

  /** A string with no whitespace at either end is its own strip. */
  lemma StripFixesTrimmed(s: string)
    requires s == [] || (!IsSpace(s[0]) && !IsSpace(s[|s| - 1]))
    ensures Strip(s) == s
  {
  }

  /** `c.lower()` for an ASCII letter; every other character, and so every
      whitespace character and `@`, is left as it is. */
  function LowerChar(c: char): (l: char)
    ensures 'A' <= c <= 'Z' ==> l as int == c as int + 32
    ensures !('A' <= c <= 'Z') ==> l == c
    ensures !('A' <= l <= 'Z')
  {
    if 'A' <= c <= 'Z' then (c as int + 32) as char else c
  }

  /** Lower-casing neither makes nor unmakes whitespace. */
  lemma LowerCharKeepsSpace(c: char)
    ensures IsSpace(LowerChar(c)) <==> IsSpace(c)
  {
  }

  /** `s.lower()`, character by character. */
  function Lower(s: string): (r: string)
    ensures |r| == |s|
    ensures forall i :: 0 <= i < |s| ==> r[i] == LowerChar(s[i])
  {
    if s == [] then [] else [LowerChar(s[0])] + Lower(s[1..])
  }

  /** Lower-casing a string and one more character. */
  lemma LowerSnoc(s: string, c: char)
    ensures Lower(s + [c]) == Lower(s) + [LowerChar(c)]
  {
  }

  /** Lower-casing twice is lower-casing once. */
  lemma LowerIdempotent(s: string)
    ensures Lower(Lower(s)) == Lower(s)
  {
    if s != [] {
      LowerIdempotent(s[1..]);
    }
  }

  /** Stripping twice is stripping once. */
  lemma StripIdempotent(s: string)
    ensures Strip(Strip(s)) == Strip(s)
  {
    StripFixesTrimmed(Strip(s));
  }

  /** The strip is empty exactly when the string is all whitespace. */
  lemma StripEmptyIffAllSpace(s: string)
    ensures Strip(s) == [] <==> AllSpace(s)
  {
  }
}

=== FILE: users.dfy ===
/** The account record (`CustomUser`) and the user store the views work on.
    The store is a map from primary key to record; Django's `.get(...)` on a
    filtered query is `Get` over the set of keys the filter matched. */
module Users {
  import opened Common
  import opened Text

  const DefaultTimezone := "Europe/London"
  /** Both `timezone` and `subscription_id` are `varchar(100)` columns. */
  const TimezoneMaxLength := 100
  const SubscriptionIdMaxLength := 100

  // Column widths Django's `AbstractUser` declares for the inherited fields.
  const UsernameMaxLength := 150
  const NameMaxLength := 150
  const EmailMaxLength := 254

  /** One account. The first five fields come from Django's `AbstractUser`;
      `password` is the secret last given to `set_password`, with hashing
      abstracted away. The last three fields hold the email-confirmation
      state the views read and write. */
  datatype User = User(
    username: string,
    email: string,
    password: string,
    firstName: string,
    lastName: string,
    isTeacher: bool,
    points: int,
    timezone: string,
    subscriptionId: Option<string>,
    subscriptionStatus: Option<string>,
    dailyTarget: int,
    achievements: seq<int>,
    emailConfirmed: bool,
    confirmationToken: Option<string>,
    confirmationSentAt: Option<int>)

  type UserStore = map<UserId, User>

  /** A response status together with the store after the request. */
  datatype Reply = Reply(status: int, users: UserStore)

  /** Django's `check_password`: does `raw` match the stored credential? */
  predicate CheckPassword(u: User, raw: string) {
    u.password == raw
  }

  /** The record fits the length-limited columns it is saved into; saving
      one that does not raises a database error. */
  predicate FitsColumns(u: User) {
    && |u.username| <= UsernameMaxLength
    && |u.email| <= EmailMaxLength
    && |u.firstName| <= NameMaxLength && |u.lastName| <= NameMaxLength
    && |u.timezone| <= TimezoneMaxLength
    && (u.subscriptionId.Some? ==> |u.subscriptionId.value| <= SubscriptionIdMaxLength)
  }

  /** Every stored record fits its columns. */
  predicate ValidStore(s: UserStore) {
    forall id :: id in s ==> FitsColumns(s[id])
  }

  /** No two accounts share a non-empty email address. Registration may leave
      the address empty, so empty addresses are exempt. */
  predicate UniqueEmails(s: UserStore) {
    forall a, b :: a in s && b in s && s[a].email == s[b].email && s[a].email != "" ==> a == b
  }

  /** No two accounts share a username. */
  predicate UniqueUsernames(s: UserStore) {
    forall a, b :: a in s && b in s && s[a].username == s[b].username ==> a == b
  }

  /** `t` with every character after its last `@` lower-cased, the part
      `normalize_email` lower-cases; with no `@`, every character. */
  function LowerDomain(t: string): (r: string)
    ensures |r| == |t|
    ensures forall i :: 0 <= i < |t| ==> r[i] == t[i] || r[i] == LowerChar(t[i])
  {
    if t == [] || t[|t| - 1] == '@' then t
    else LowerDomain(t[..|t| - 1]) + [LowerChar(t[|t| - 1])]
  }

  /** The domain after the last `@` is lower-cased and the rest, up to and
      including that `@`, is kept. */
  lemma {:induction false} LowerDomainSplits(local: string, domain: string)
    requires '@' !in domain
    ensures LowerDomain(local + "@" + domain) == local + "@" + Lower(domain)
  {
    var e := local + "@" + domain;
    if domain == [] {
      assert e[|e| - 1] == '@';
    } else {
      var n := |domain| - 1;
      var front, last := domain[..n], domain[n];
      assert domain == front + [last];
      SplitLast(local + "@", front, last);
      LowerDomainSplits(local, front);
      LowerSnoc(front, last);
    }
  }

  /** The last character of `p + q + [c]`, and what comes before it. */
  lemma SplitLast(p: string, q: string, c: char)
    ensures var e := p + (q + [c]); e[|e| - 1] == c && e[..|e| - 1] == p + q
  {
    assert p + (q + [c]) == (p + q) + [c];
  }

  /** Lowering the domain twice is lowering it once. */
  lemma {:induction false} LowerDomainIdempotent(t: string)
    ensures LowerDomain(LowerDomain(t)) == LowerDomain(t)
  {
    if t != [] && t[|t| - 1] != '@' {
      var r := LowerDomain(t);
      var n := |t| - 1;
      assert r[..n] == LowerDomain(t[..n]) && r[n] == LowerChar(t[n]);
      LowerDomainIdempotent(t[..n]);
    }
  }

  /** The address with its surrounding whitespace trimmed, one end at a
      time, and then its domain lower-cased. */
  function CleanAddress(s: string): (r: string)
    ensures |r| <= |s|
    ensures '@' in s ==> r != []
  {
    if s != [] && IsSpace(s[0]) then
      assert '@' in s ==> '@' in s[1..] by {
        if '@' in s {
          var k :| 0 <= k < |s| && s[k] == '@';
          assert k > 0 && s[1..][k - 1] == '@';
        }
      }
      CleanAddress(s[1..])
    else if s != [] && IsSpace(s[|s| - 1]) then
      assert '@' in s ==> '@' in s[..|s| - 1] by {
        if '@' in s {
          var k :| 0 <= k < |s| && s[k] == '@';
          assert k < |s| - 1 && s[..|s| - 1][k] == '@';
        }
      }
      CleanAddress(s[..|s| - 1])
    else LowerDomain(s)
  }

  /** Lowering the domain of a trimmed address keeps an `@` and leaves no
      whitespace at either end. */
  lemma LowerDomainShape(t: string)
    requires '@' in t && !IsSpace(t[0]) && !IsSpace(t[|t| - 1])
    ensures var r := LowerDomain(t); '@' in r && !IsSpace(r[0]) && !IsSpace(r[|r| - 1])
  {
    var r := LowerDomain(t);
    var k :| 0 <= k < |t| && t[k] == '@';
    assert r[k] == '@';
    LowerCharKeepsSpace(t[0]);
    LowerCharKeepsSpace(t[|t| - 1]);
  }

  /** `BaseUserManager.normalize_email`: an address with an `@` is stripped
      and has the part after its last `@` lower-cased; one without is kept
      exactly as given (`rsplit` fails on it). Since whitespace is never an
      `@`, the stripped address has an `@` exactly when the address does;
      `NormalizeEmailFollowsDefinition` states it in those terms. It never
      grows, leaves an address without `@` alone and keeps only the empty
      address empty. */
  function NormalizeEmail(email: string): (r: string)
    ensures |r| <= |email|
    ensures '@' !in email ==> r == email
    ensures r == [] <==> email == []
  {
    if '@' !in email then email else CleanAddress(email)
  }

  /** Trimming one end at a time and lowering the domain is lowering the
      domain of `Strip`. */
  lemma {:induction false} CleanAddressIsLoweredStrip(s: string)
    ensures CleanAddress(s) == LowerDomain(Strip(s))
    decreases |s|
  {
    if s != [] && IsSpace(s[0]) {
      StripDropsFirst(s);
      CleanAddressIsLoweredStrip(s[1..]);
    } else if s != [] && IsSpace(s[|s| - 1]) {
      StripDropsLast(s);
      CleanAddressIsLoweredStrip(s[..|s| - 1]);
    } else {
      StripFixesTrimmed(s);
    }
  }

  /** The reference reading of `normalize_email`: strip, and when the result
      splits at an `@`, lower-case what follows the last one. */
  lemma NormalizeEmailFollowsDefinition(email: string)
    ensures NormalizeEmail(email) ==
            if '@' in Strip(email) then LowerDomain(Strip(email)) else email
  {
    CleanAddressIsLoweredStrip(email);
    if '@' in email {
      StripKeepsVisible(email, '@');
    } else if '@' in Strip(email) {
      StripKeeps(email, '@');
    }
  }

  /** An address with no whitespace at either end keeps its local part and
      has its domain lower-cased. */
  lemma NormalizeEmailLowersDomain(local: string, domain: string)
    requires '@' !in domain
    requires var e := local + "@" + domain; !IsSpace(e[0]) && !IsSpace(e[|e| - 1])
    ensures NormalizeEmail(local + "@" + domain) == local + "@" + Lower(domain)
  {
    var e := local + "@" + domain;
    StripFixesTrimmed(e);
    assert e[|local|] == '@';
    NormalizeEmailFollowsDefinition(e);
    LowerDomainSplits(local, domain);
  }

  /** A trimmed address with its domain lowered is already normal. */
  lemma LoweredAddressIsNormal(t: string)
    requires '@' in t && !IsSpace(t[0]) && !IsSpace(t[|t| - 1])
    ensures NormalizeEmail(LowerDomain(t)) == LowerDomain(t)
  {
    var r := LowerDomain(t);
    LowerDomainShape(t);
    StripFixesTrimmed(r);
    NormalizeEmailFollowsDefinition(r);
    LowerDomainIdempotent(t);
  }

  /** Normalising an address twice is normalising it once. */
  lemma {:induction false} NormalizeEmailIdempotent(email: string)
    ensures NormalizeEmail(NormalizeEmail(email)) == NormalizeEmail(email)
  {
    NormalizeEmailFollowsDefinition(email);
    var t := Strip(email);
    if '@' in t {
      LoweredAddressIsNormal(t);
    }
  }

  /** `create_user`: a new account with every `CustomUser` default in place
      and the address normalised; `isTeacher` is `None` when the caller does
      not pass `is_teacher`. */
  function CreateUser(username: string, email: string, password: string,
                      firstName: string, lastName: string, isTeacher: Option<bool>): (u: User)
    ensures u.username == username && u.email == NormalizeEmail(email)
    ensures u.firstName == firstName && u.lastName == lastName
    ensures isTeacher == None ==> !u.isTeacher
    ensures isTeacher.Some? ==> u.isTeacher == isTeacher.value
    ensures CheckPassword(u, password)
    ensures u.points == 0 && u.dailyTarget == 0
    ensures u.timezone == DefaultTimezone
    ensures u.subscriptionId == None && u.subscriptionStatus == None
    ensures u.achievements == []
    ensures !u.emailConfirmed && u.confirmationToken == None && u.confirmationSentAt == None
    ensures FitsColumns(u) <==>
              && |username| <= UsernameMaxLength && |NormalizeEmail(email)| <= EmailMaxLength
              && |firstName| <= NameMaxLength && |lastName| <= NameMaxLength
  {
    User(username, NormalizeEmail(email), password, firstName, lastName, isTeacher.GetOr(false),
         0, DefaultTimezone, None, None, 0, [], false, None, None)
  }

  /** No account uses the username. */
  predicate UsernameUnused(s: UserStore, name: string) {
    forall id :: id in s ==> s[id].username != name
  }

  /** No account other than `self` uses the username. */
  predicate UsernameUnusedByOthers(s: UserStore, self: UserId, name: string) {
    forall other :: other in s && other != self ==> s[other].username != name
  }

  /** No account uses the email address. */
  predicate EmailUnused(s: UserStore, email: string) {
    forall id :: id in s ==> s[id].email != email
  }

  /** Keys of the accounts with a given email address. */
  function WithEmail(s: UserStore, email: string): (ids: set<UserId>)
    ensures forall id :: id in ids <==> id in s && s[id].email == email
    ensures ids == {} <==> EmailUnused(s, email)
  {
    set id | id in s && s[id].email == email
  }

  /** Keys of the accounts with a given username. */
  function WithUsername(s: UserStore, username: string): (ids: set<UserId>)
    ensures forall id :: id in ids <==> id in s && s[id].username == username
    ensures ids == {} <==> UsernameUnused(s, username)
  {
    set id | id in s && s[id].username == username
  }

  /** Keys of the accounts holding a given confirmation token. */
  function WithToken(s: UserStore, token: string): (ids: set<UserId>)
    ensures forall id :: id in ids <==> id in s && s[id].confirmationToken == Some(token)
    ensures ids == {} <==> forall id :: id in s ==> s[id].confirmationToken != Some(token)
  {
    set id | id in s && s[id].confirmationToken == Some(token)
  }

  /** What `QuerySet.get` does with the rows a filter matched: raise
      `DoesNotExist`, return the one row, or raise `MultipleObjectsReturned`. */
  datatype Lookup = NotFound | Found(id: UserId) | Multiple

  function Get(ids: set<UserId>): (r: Lookup)
    ensures r.NotFound? <==> ids == {}
    ensures r.Found? <==> |ids| == 1
    ensures r.Found? ==> ids == {r.id}
    ensures r.Multiple? <==> |ids| > 1
  {
    if ids == {} then NotFound
    else if |ids| == 1 then
      SingletonHasOneMember(ids);
      var id :| id in ids; Found(id)
    else Multiple
  }

  lemma SingletonHasOneMember(ids: set<UserId>)
    requires |ids| == 1
    ensures forall a, b :: a in ids && b in ids ==> a == b
  {
    var a :| a in ids;
    assert |ids - {a}| == 0;
  }

  /** Under unique emails, a non-empty address matches at most one account. */
  lemma UniqueEmailLookup(s: UserStore, email: string)
    requires UniqueEmails(s) && email != ""
    ensures !Get(WithEmail(s, email)).Multiple?
  {
    var ids := WithEmail(s, email);
    if ids != {} {
      var a :| a in ids;
      assert ids == {a};
    }
  }
}
